=== FILE: README.md ===
# collegebuddy: a verified model of the clinic calendar, the voice-receptionist API and the campus pages

collegebuddy is a Next.js college portal that also hosts a dental clinic's
virtual receptionist. This project models the parts of it that compute
something:

- **The clinic calendar service.** It builds the bookable slots from the fixed
  opening hours, converts "H:MM AM/PM" times to 24-hour "HH:MM:00", adds
  minutes to a time and turns an appointment request into a calendar event.
- **The three voice-receptionist API routes.**
  - Appointments: POST validates and echoes a request; GET returns a fixed
    slot list.
  - Webhook: call notices and the assistant's function calls.
  - Calls: start, update and list call sessions.
- **The page logic.**
  - Student events: search, status filter, registration window, capacity,
    registration state.
  - Student lectures: search, status and subject filters, unique subjects.
  - Faculty dashboard: counts, recent and upcoming lists, average attendance.
  - Student dashboard: attendance percentage, event counts, upcoming lectures.
  - Navigation bar: links per role, dashboard link, role label.
  - Landing-page redirect.
  - Receptionist dashboard: call statistics, recent calls, "m:ss" durations.

## How JavaScript behaviour is modelled

**JSON values.** A JSON value is the `Json` datatype, and an object is a
`map<string, Json>`.

- Object spread `{...a, ...b}` is map override (`Json.Spread`).
- Reading a property of `null` throws. `PropertiesOf` returns `None` for
  null, and a route turns that into its 500 response.
- Any other non-object value has no own properties.
- Truthiness and template-literal rendering are written out (`Truthy`,
  `Render`).

**Strings and numbers.** Strings are `seq<char>`. These JavaScript string and
number operations are modelled explicitly in `Text`:

- `split` on one character;
- `padStart(2, '0')`;
- `parseInt` and `Number` on integer text;
- `toString` of integers;
- ASCII `toLowerCase`, `includes`;
- the first-occurrence `replace`.

**Arithmetic.** JavaScript's `Math.floor(x / 60)` and truncating `%` are
`Arith.FloorDiv` and `Arith.JsRem`. `Math.round(p / t * 100)` is the exact
rounding `Arith.Percent`.

**Parameters.** Whatever the code reads from the outside world is a
parameter:

- the current time, as an integer timestamp;
- generated identifiers;
- the day of the week of a requested date;
- query results, as sequences of rows.

## Model

| member | source | states |
|---|---|---|
| CalendarService.BookAppointment | lib/services/calendar-service.ts:86-111 | The event gets the given id. Its title is "Dental Appointment - " and the patient name. Patient, contact and treatment are copied. Status is confirmed exactly when the request is urgent, else scheduled. Start and end both begin with the requested date and "T". |
| CalendarService.GetAvailableSlots | lib/services/calendar-service.ts:33-81 | Sunday gives no slots. Every slot offered on any day is available and lasts the appointment duration of 30 minutes. |
| CalendarFacts.AvailableSlotsSchedule | lib/services/calendar-service.ts:22-81 | Sunday gives no slots. Saturday gives the Saturday table. Every other day, an unparseable date included, gives the weekday table. |
| CalendarFacts.AvailableSlotTimes | lib/services/calendar-service.ts:54-72 | On an open day, slot i is available, lasts 30 minutes and is labelled with the "HH:MM" text of the i-th start minute. |
| CalendarFacts.WeekdayTable | lib/services/calendar-service.ts:22-72 | A minute starts a weekday slot iff it is on the half hour, between 09:00 and 17:00, and outside the 12 o'clock hour. The starts are strictly increasing. |
| CalendarFacts.SaturdayTable | lib/services/calendar-service.ts:22-72 | The same for Saturday, between 09:00 and 13:00, in increasing order. |
| CalendarFacts.LoopStartsMembers | lib/services/calendar-service.ts:54-72 | For any opening and closing hour, the slot loop offers exactly the half-hour marks from the first hour to the top of the last hour, skipping lunch. |
| CalendarFacts.LoopStartsAscending | lib/services/calendar-service.ts:54-72 | The loop emits its start minutes in strictly increasing order. |
| ClockFacts.ConvertTo24HourFields | lib/services/calendar-service.ts:116-129 | On "H[:MM][ modifier]" input, the conversion yields the zero-padded 24-hour clock text plus ":00". 12 AM is 00 and 12 PM is 12. Other PM hours gain twelve. Only the exact modifier "PM" counts. A missing minute gives "00". |
| CalendarService.ConvertEndsInSeconds | lib/services/calendar-service.ts:116-129 | Every conversion result, whatever the input, ends in ":00". |
| CalendarService.AddMinutesEndsInSeconds | lib/services/calendar-service.ts:134-143 | Every result of adding minutes, whatever the input, ends in ":00". |
| ClockFacts.AddMinutesFields | lib/services/calendar-service.ts:134-143 | Adding n minutes to such a time gives the clock text of the shifted minute count. Past midnight the hour keeps counting instead of wrapping. |
| Text.NoBreakSpaceTrimmed | lib/services/calendar-service.ts:125-136 | `Number` and `parseInt` skip a leading no-break space, as they do any ECMAScript white space: "\u00A030" reads as 30 and "\u00A09" as 9. |
| ClockFacts.ClockTextRoundTrip | lib/services/calendar-service.ts:134-143 | Reading the "HH:MM:00" text of a minute count back the way `addMinutes` reads it returns the same count. |
| ClockFacts.BookingStart | lib/services/calendar-service.ts:94-103 | A booking for a well-formed 12-hour time starts at that time's 24-hour text on the requested date. |
| ClockFacts.BookingEnd | lib/services/calendar-service.ts:94-103 | The booking ends exactly 30 minutes after its start, on the same date. |
| AppointmentsRoute.CreateAppointment | app/api/voice-ai/appointments/route.ts:4-51 | A missing or null body gives 500. A body lacking a truthy patient name, contact number, date or time gives 400. Otherwise the answer is 200 with the appointment record and a "Appointment scheduled for ..." message. Error bodies hold only `error`. |
| AppointmentsRoute.AppointmentRecord | app/api/voice-ai/appointments/route.ts:26-32 | The record has the body's keys plus id, status, createdAt and clinicId. The body may replace the generated id but not the three trailing fields. Other fields are copied. |
| AppointmentsRoute.ScheduledMessage | app/api/voice-ai/appointments/route.ts:38-42 | With string name, date and time, the message is exactly "Appointment scheduled for NAME on DATE at TIME". |
| AppointmentsRoute.Availability | app/api/voice-ai/appointments/route.ts:53-68 | The date is the query date when non-empty, otherwise today. The slot list is the seven fixed times in order. |
| AppointmentsRoute.MockSlotsAgainstCalendar | app/api/voice-ai/appointments/route.ts:59-62 | Each fixed time converts to the clock text of a weekday slot start. Only the three morning times are Saturday slots, and the list ignores Sundays. |
| WebhookRoute.RequestOf | app/api/voice-ai/webhook/route.ts:49-51 | A request is read exactly when the parameters are an object whose preferredTime is a string, the one field booking cannot do without. Name, contact and date are their rendered text, "undefined" when absent. The treatment type is the value sent, as is. The request is urgent exactly when isUrgent is truthy. |
| WebhookRoute.BookingWithTimeOnly | app/api/voice-ai/webhook/route.ts:49-53 | Parameters holding only a string time still book, with the title "Dental Appointment - undefined". |
| WebhookRoute.HandleFunctionCall | app/api/voice-ai/webhook/route.ts:46-78 | A booking happens iff the name is bookAppointment and the parameters form a request. The booked event is the calendar service's, and it is confirmed exactly for urgent requests. Slots are counted iff the name is checkAvailability and the parameters are present and not null, and the count is the calendar's slots for the day. Clinic information is requested iff the name is getClinicInfo. An unhandled-function effect, carrying the rendered name, occurs iff the name is readable and none of the three. The handler fails iff the name cannot be read, a booking's parameters are not an object with a string preferredTime, or an availability check has missing or null parameters. It never produces a call notice or an unhandled-type effect. |
| WebhookRoute.HandleWebhook | app/api/voice-ai/webhook/route.ts:5-44 | The status is 200 with `{success: true}` or 500 with the error body. It is 500 exactly when the payload is missing or null, or when a call notice has no readable call id. A function call always answers 200 and runs the function handler. |
| WebhookRoute.AvailabilityCount | app/api/voice-ai/webhook/route.ts:59-64 | An availability check counts 0 slots on Sunday, 7 on Saturday and 15 on other days. |
| CallsRoute.StartedSessionAsWritten | app/api/voice-ai/calls/route.ts:8-14 | The session as written: every client field wins over the defaults, including a falsy callType. Defaults fill only absent keys. |
| CallsRoute.FalsyCallTypeKept | app/api/voice-ai/calls/route.ts:12-13 | As written, a body `{"callType": ""}` gives a session whose callType is "". A null callType stays falsy. |
| CallsRoute.StartedSession | app/api/voice-ai/calls/route.ts:8-14 | Corrected session: the same keys. Every client field except callType is copied. callType is the client's when truthy, else "inquiry", so it is always truthy. |
| CallsRoute.StartedSessionCorrection | app/api/voice-ai/calls/route.ts:12-13 | The corrected and as-written sessions differ exactly when the client sends a callType key with a falsy value. |
| CallsRoute.StartCall | app/api/voice-ai/calls/route.ts:4-32 | A missing or null body gives 500. Otherwise the answer is 200 with success and the session as the handler builds it: the client's fields override the defaults, so a falsy callType the client sends is kept. |
| CallsRoute.UpdatedSession | app/api/voice-ai/calls/route.ts:36-51 | callId is removed, and id and updatedAt are added. id is the body's own id if it sent one, else callId. Every other field is copied. |
| CallsRoute.UpdateCall | app/api/voice-ai/calls/route.ts:34-66 | A missing or null body gives 500. A falsy callId gives 400 "Call ID is required". Otherwise the answer is 200 with the updated session. |
| CallsRoute.FilterSessions | app/api/voice-ai/calls/route.ts:88-96 | Filtering never lengthens the list. |
| CallsRoute.FilterSessionsMembership | app/api/voice-ai/calls/route.ts:88-96 | A session is listed iff it is stored and matches every non-empty query parameter. |
| CallsRoute.FilterSessionsSubsequence | app/api/voice-ai/calls/route.ts:88-96 | The listed sessions keep their stored order. |
| CallsRoute.SessionJson | app/api/voice-ai/calls/route.ts:77-86 | A session's JSON always has id, startTime, status and callType, and has a duration exactly when the session does. |
| CallsRoute.ListCalls | app/api/voice-ai/calls/route.ts:68-111 | GET answers 200 with success, sessions and total. The listed sessions are exactly the stored sessions that pass the filter, in stored order, each as its JSON. The total equals the number listed, and at most the stored ones are listed. |
| CallsRoute.ListedTotal | app/api/voice-ai/calls/route.ts:77-101 | For every query, the total is 1 if the one stored session matches the callId and status parameters and 0 otherwise. |
| CallsRoute.ListCallsFound | app/api/voice-ai/calls/route.ts:77-101 | The stored session is found with no filter, with empty parameters, and by its own id and status. |
| CallsRoute.ListCallsNotFound | app/api/voice-ai/calls/route.ts:77-101 | Another id or another status finds nothing. |
| StudentEvents.FilterEvents | app/student/events/page.tsx:103-121 | Filtering never lengthens the list. |
| StudentEvents.FilterEventsMembership | app/student/events/page.tsx:103-121 | An event is shown iff it is loaded, the search term is empty or found case-insensitively in its title, description or venue, and the status filter is "all" or its status. |
| StudentEvents.FilterEventsSubsequence | app/student/events/page.tsx:103-121 | Shown events keep the loaded order. With no search and "all", every event is shown. |
| StudentEvents.SearchIgnoresOtherFields | app/student/events/page.tsx:107-113 | The search looks only at title, description and venue. |
| StudentEvents.SearchCaseInsensitive | app/student/events/page.tsx:107-113 | A title and a search term that differ only in letter case from the original ones give the same verdict. |
| StudentEvents.SearchIgnoresCase | app/student/events/page.tsx:108-111 | "music" finds an event titled "MUSIC NIGHT". |
| StudentEvents.RegistrationOpenCases | app/student/events/page.tsx:191-198 | For `IsRegistrationOpen`: registration is closed unless it is required and the event is upcoming. It is then open before the deadline, or before the event date when there is no deadline. |
| StudentEvents.UnlimitedEventNeverFull | app/student/events/page.tsx:200-202 | An event without a participant limit, or with limit 0, is never full. |
| StudentEvents.LimitedEventFull | app/student/events/page.tsx:200-202 | For `IsEventFull`: an event with a non-zero limit is full iff its participant count has reached the limit. A missing count never makes it full. |
| StudentEvents.WithRegistration | app/student/events/page.tsx:67-90 | The student counts as registered iff exactly one of their rows exists for the event. The participant count is the event's "registered" rows. No other field changes. |
| StudentEvents.Register | app/student/events/page.tsx:127-137 | Registering appends exactly one row, with the given id, event, student and "registered" status, and keeps every earlier row in place. |
| StudentEvents.Unregister | app/student/events/page.tsx:139-146 | A row is kept iff it was there and does not belong to the given student and event. Unregistering never adds rows. |
| StudentEvents.UnregisterKeepsOthers | app/student/events/page.tsx:139-146 | Unregistering leaves every other event exactly as it was loaded, and leaves every other student's registration state unchanged on the event itself. |
| StudentEvents.RegisterThenListed | app/student/events/page.tsx:123-158 | After a first registration and reload, the event shows as registered and the participant count has grown by one. |
| StudentEvents.RegisterTwiceNotListed | app/student/events/page.tsx:71-87 | A second registration row for the same student makes the event read as not registered. |
| StudentEvents.UnregisterThenNotListed | app/student/events/page.tsx:139-150 | Unregistering removes every row of the student for the event, so it reads as not registered. |
| StudentLectures.FilterLectures | app/student/lectures/page.tsx:92-115 | Filtering never lengthens the list. |
| StudentLectures.FilterLecturesMembership | app/student/lectures/page.tsx:92-115 | A lecture is shown iff it is loaded and passes the search (title, subject or faculty name, case-insensitive), the status filter and the subject filter. |
| StudentLectures.FilterLecturesSubsequence | app/student/lectures/page.tsx:92-115 | Shown lectures keep the loaded order, so a latest-first list stays latest first. |
| StudentLectures.DescriptionNotSearched | app/student/lectures/page.tsx:96-102 | The lecture search ignores the description. |
| StudentLectures.UniqueSubjects | app/student/lectures/page.tsx:80-82 | The subject list has no repeats, holds every lecture's subject and nothing else, and orders subjects by first appearance. |
| FacultyDashboard.AttendanceTotals | app/faculty/dashboard/page.tsx:76-88 | Over the faculty member's lectures, the present marks never exceed the marks. With no lectures both are 0. |
| FacultyDashboard.AttendanceTotalsCount | app/faculty/dashboard/page.tsx:76-92 | With distinct lecture ids, the totals are the number of marks of the faculty member's lectures and the number of those that are "present". |
| FacultyDashboard.PresentAtMostMarked | app/faculty/dashboard/page.tsx:76-88 | For one lecture, the present marks never outnumber its marks. |
| FacultyDashboard.BuildDashboard | app/faculty/dashboard/page.tsx:54-117 | The dashboard holds the lecture count and the count of future non-cancelled lectures. The average attendance is the rounded percentage of present marks, from 0 to 100, and 0 without marks. Recent is the first five lectures. Upcoming holds at most five lectures, each future and not cancelled. |
| FacultyDashboard.UpcomingList | app/faculty/dashboard/page.tsx:61-74 | Upcoming is an in-order selection of the lectures. With five or fewer pending, it holds exactly the pending ones. |
| FacultyDashboard.UpcomingAreFurthest | app/faculty/dashboard/page.tsx:61-74 | On a latest-first list, every pending lecture left out of upcoming is scheduled no later than every lecture shown, so upcoming shows the furthest ones. |
| FacultyDashboard.LateIsNotPresent | app/faculty/dashboard/page.tsx:86-92 | One present and one late mark give 50 percent. |
| StudentDashboard.Stats | app/student/dashboard/page.tsx:60-102 | The total is the number of marks. The percentage is the rounded share of present marks, from 0 to 100, and 0 without marks. The upcoming count is the number of "upcoming" events among the first five, and the completed count the number of "completed" ones. Together they fit in those five. |
| StudentDashboard.LaterEventsIgnored | app/student/dashboard/page.tsx:86-95 | Events after the first five change nothing in the statistics. |
| StudentDashboard.EventCountsComplete | app/student/dashboard/page.tsx:94-95 | When at most five events are all upcoming or completed, the two counts add up to the number of events. |
| StudentDashboard.DisjointCounts | app/student/dashboard/page.tsx:94-95 | Counts of two different event statuses together never exceed the number of events. |
| StudentDashboard.Upcoming | app/student/dashboard/page.tsx:104-111 | A listed lecture keeps id, title, subject and time. The room defaults to "TBA" and the faculty to "Unknown" when missing or empty. |
| StudentDashboard.KeptLectures | app/student/dashboard/page.tsx:71-84 | The query returns at most five lectures, each one of the given lectures and none before now. |
| StudentDashboard.KeptLecturesComplete | app/student/dashboard/page.tsx:71-84 | With at most five future lectures, the query returns exactly those. |
| StudentDashboard.UpcomingLectures | app/student/dashboard/page.tsx:104-111 | The list has one entry per lecture the query kept, in the same order, each displayed with the defaults. |
| StudentDashboard.UpcomingNeverBlank | app/student/dashboard/page.tsx:104-111 | No listed lecture shows a blank room or a blank faculty name. |
| StudentDashboard.UpcomingLecturesOrdered | app/student/dashboard/page.tsx:71-111 | Soonest-first input gives a soonest-first upcoming list. |
| Navbar.GetNavLinks | components/ui/Navbar.tsx:34-76 | No user gives no links. Otherwise the first link is Dashboard, to the role's dashboard href, and the links after it are exactly the role's own table. |
| Navbar.LinkCounts | components/ui/Navbar.tsx:41-75 | A student sees 4 links, faculty and both admin roles 5, and any other role only the dashboard. |
| Navbar.DashboardHrefShape | components/ui/Navbar.tsx:38 | For `DashboardHref`: the dashboard link is "/", the role with only its first underscore turned into "/", then "/dashboard". |
| Navbar.PlainDashboardHref | components/ui/Navbar.tsx:38 | A role without an underscore links to "/ROLE/dashboard". |
| Navbar.SplitDashboardHref | components/ui/Navbar.tsx:38 | A role A_B links to "/A/B/dashboard". |
| Navbar.RoleLabelShape | components/ui/Navbar.tsx:148 | For `RoleLabel`: the role label is the role with its first underscore turned into a space. |
| Navbar.RoleLabelFirstOnly | components/ui/Navbar.tsx:148 | A_B is labelled "A B", and later underscores stay. |
| HomePage.Redirect | app/page.tsx:20-40 | A redirect happens iff the session is loaded and a user is signed in, and it goes to the role's page. |
| HomePage.RoleRedirect | app/page.tsx:23-38 | The login page is the target exactly for roles other than the four known ones. |
| HomePage.RedirectTargets | app/page.tsx:23-38 | Two different known roles are sent to different pages. |
| HomePage.NavbarAgreesForPlainRoles | app/page.tsx:30-35 | For student and faculty, the navbar's dashboard link is the page the landing page redirects to. |
| HomePage.NavbarDisagreesForAdmins | app/page.tsx:24-29 | For both admin roles, the navbar's dashboard link differs from the redirect target. |
| ReceptionistDashboard.Stats | components/voice-ai/VirtualReceptionistDashboard.tsx:44-55 | The total counts the listed sessions (none when the list is missing). Appointments and active calls are counted and never exceed the total. The average is the rounded mean duration, with missing durations as 0, and 0 when there are no calls. |
| ReceptionistDashboard.AverageWithinBounds | components/voice-ai/VirtualReceptionistDashboard.tsx:48-53 | With every duration between 0 and a bound, the average lies between 0 and that bound. |
| ReceptionistDashboard.TotalDurationBounds | components/voice-ai/VirtualReceptionistDashboard.tsx:48 | The summed durations lie between 0 and the bound times the count. |
| ReceptionistDashboard.RecentSessions | components/voice-ai/VirtualReceptionistDashboard.tsx:159 | The recent list is the first five sessions, or all of them when fewer. |
| DurationFacts.FormatDurationFields | components/voice-ai/VirtualReceptionistDashboard.tsx:64-68 | For `FormatDuration`: a non-negative duration renders as unpadded minutes, ":", and exactly two digits of seconds. |
| DurationFacts.FormatDurationRoundTrip | components/voice-ai/VirtualReceptionistDashboard.tsx:64-68 | Reading a rendered non-negative duration back as minutes and seconds gives the original number of seconds. |
| DurationFacts.FormatThreeMinutes | components/voice-ai/VirtualReceptionistDashboard.tsx:64-68 | 180 seconds render as "3:00". |
| Arith.Percent | app/student/dashboard/page.tsx:68 | The rounded percentage is 0 for an empty total. It lies within the half-up rounding bracket of 100·part/total, between 0 and 100 when part ≤ total, and is 100 when all count. |

## Left out

- **I/O.** Database queries, HTTP, logging, toasts, routing and React state
  are outside the model. Query results and request bodies are parameters.
  Thrown query errors and the `|| 0` fallbacks for a missing result are not
  modelled.
- **Webhook signatures.** The signature check is commented out in the
  webhook. Its helper always returns true and nobody calls it.
- **The configuration route and the clinic information.** The configuration
  route and the clinic information are not part of this model. The
  `getClinicInfo` function call is modelled only as "clinic information
  requested".
- **Confirmations and reminders.** `sendConfirmation` and `sendReminder` only
  log. They are modelled as constant `true`.
- **Dates.** Date parsing and formatting (`new Date`, `toLocale*`,
  `toISOString`) are not modelled. Timestamps are integers, and the day of
  the week of a requested date is a parameter.
- **Floating point.** Averages and percentages use exact rational rounding.
  They can differ from `Math.round` of a double on exact .5 ties.
- FacultyDashboard.BuildDashboard: exact rounding, not the double-precision
  `Math.round`. The bracket it states is the exact one.
- StudentDashboard.Stats: exact rounding, as above.
- ReceptionistDashboard.Stats: exact rounding of the mean, as above.
- **Number syntax.** `Number` is modelled for surrounding white space, an
  optional sign and decimal digits. White space is the full ECMAScript set,
  line terminators and Unicode space separators included. Its hexadecimal,
  exponent and fractional forms count as not a number, and so do "Infinity"
  and "-Infinity", which JavaScript reads as infinite numbers. `parseInt`
  reads the leading integer prefix and ignores what follows, so "1.5" reads
  as 1; a "0x" prefix is not modelled. Integers are exact: the rounding of
  literals beyond 2^53 to the nearest double is not modelled.
  Number-to-text conversion has no exponent form.
- **JSON numbers.** `Json.JNumber` holds an integer. Fractional JSON numbers
  are not modelled; every number the modelled code reads or writes is a
  whole number of seconds, minutes or items.
- **Lower-casing.** It covers ASCII letters only.
- **Spreads of strings and arrays.** A string or array spread into an object
  contributes no fields in the model.
- WebhookRoute.RequestOf: name, contact and date are kept as their rendered
  text. The title and the times are therefore exact. The event's copied
  patient name and contact number hold that text too, where the code copies
  the raw value (`undefined`, a number, an object).
- **Key order.** Response bodies are maps, so the order in which
  `JSON.stringify` would write their keys is not modelled. Only which keys
  are present and their values are.
- StudentLectures.FilterLectures: a lecture without a faculty record makes
  the code throw while searching. The model treats it as not matching.
- ClockFacts.AddMinutesFields: stated only for results that are not before
  midnight. The function itself follows the code for negative totals too.
- ClockFacts.ConvertTo24HourFields: stated for well-formed "H[:MM][ modifier]"
  input. Other input runs through the same function but has no
  closed-form statement.
- StudentEvents.WithRegistration: a single-row query is modelled as "exactly
  one matching row". Its error cases are folded into "not registered".
- **The meeting-link button.** The lectures page shows a meeting link only
  for upcoming lectures. That is rendering; the `isUpcoming` test itself is
  `StudentLectures.IsUpcoming`, which the faculty dashboard's pending test
  reuses.
- **The `registering` flag.** The button state on the events page is UI only.

## Findings

| source | as written | input that shows it | evidently intended | confidence | as-written member | corrected member |
|---|---|---|---|---|---|---|
| app/api/voice-ai/calls/route.ts:12-13 | `callType: callData.callType \|\| 'inquiry'` is placed before `...callData`, so the spread overwrites the default with the client's own falsy value | body `{"callType": ""}` gives a session with `callType: ""` | a session always has a call type, defaulting to "inquiry" | medium, not executed | CallsRoute.FalsyCallTypeKept | CallsRoute.StartedSessionCorrection |

`CallsRoute.StartCall` models the handler as written, through
`CallsRoute.StartedSessionAsWritten`. `CallsRoute.StartedSession` is the
corrected session, and `CallsRoute.StartedSessionCorrection` proves how the
two differ.

Two other behaviours follow from the code and are modelled as written:

- The calls PUT lets a body `id` replace the call id (`CallsRoute.UpdatedSession`).
- The faculty dashboard's upcoming list takes the first five pending lectures
  of a latest-first list, so it shows the furthest ones
  (`FacultyDashboard.UpcomingAreFurthest`).

=== FILE: appointments_route.dfy ===
/**
 * The appointment endpoint of the voice receptionist: POST validates a
 * request body and echoes it back as a pending appointment; GET lists a fixed
 * set of bookable times.
 */
module AppointmentsRoute {
  import opened Options
  import opened Json
  import Text
  import opened CalendarService
  import ClockFacts
  import CalendarFacts

  /** An HTTP status and a JSON object body. */
  datatype Response = Response(status: int, body: Object)

  const Pending := JString("pending")
  const ClinicId := JString("sai-clinic")
  const MessagePrefix := "Appointment scheduled for "

  /** The four request fields the endpoint refuses to do without. */
  predicate HasRequiredFields(data: Object)
  {
    && Truthy(Get(data, "patientName"))
    && Truthy(Get(data, "contactNumber"))
    && Truthy(Get(data, "preferredDate"))
    && Truthy(Get(data, "preferredTime"))
  }

  /** A missing property renders as "undefined" inside a template literal. */
  function RenderField(v: Option<Json>): string
  {
    if v.Some? then Render(v.value) else "undefined"
  }

  /**
   * `{ id, ...appointmentData, status: 'pending', createdAt, clinicId }`:
   * the body may replace the generated id but not the three trailing fields.
   */
  function AppointmentRecord(data: Object, id: string, now: string): (a: Object)
    ensures a.Keys == data.Keys + {"id", "status", "createdAt", "clinicId"}
    ensures a["status"] == Pending && a["createdAt"] == JString(now) && a["clinicId"] == ClinicId
    ensures a["id"] == if "id" in data then data["id"] else JString(id)
    ensures forall k | k in data && k !in {"status", "createdAt", "clinicId"} :: a[k] == data[k]
  {
    Spread(Spread(map["id" := JString(id)], data),
           map["status" := Pending, "createdAt" := JString(now), "clinicId" := ClinicId])
  }

  /**
   * POST: `body` is the parsed request (None when it is not JSON), `id` the
   * generated "apt_..." identifier and `now` the creation timestamp.
   */
  function CreateAppointment(body: Option<Json>, id: string, now: string): (r: Response)
    ensures r.status == 500 <==> body.None? || body == Some(JNull)
    ensures r.status == 400 <==> body.Some? && body != Some(JNull) && !HasRequiredFields(PropertiesOf(body.value).value)
    ensures r.status == 200 <==> body.Some? && body.value.JObject? && HasRequiredFields(body.value.fields)
    ensures r.status == 200 ==>
              && r.body.Keys == {"success", "appointment", "message"}
              && r.body["success"] == JBool(true)
              && r.body["appointment"] == JObject(AppointmentRecord(body.value.fields, id, now))
              && r.body["message"].JString? && MessagePrefix <= r.body["message"].s
    ensures r.status != 200 ==> r.body.Keys == {"error"}
  {
    if body.None? then
      Failed(500, "Failed to create appointment")
    else
      match PropertiesOf(body.value)
      case None => Failed(500, "Failed to create appointment")
      case Some(data) =>
        if !HasRequiredFields(data) then
          Failed(400, "Missing required appointment information")
        else
          Created(data, id, now)
  }

  /** An error response: `{ error }` with the given status. */
  function Failed(status: int, error: string): (r: Response)
    ensures r.status == status && r.body.Keys == {"error"} && r.body["error"] == JString(error)
  {
    Response(status, map["error" := JString(error)])
  }

  /** The 200 response for a valid request body. */
  function Created(data: Object, id: string, now: string): (r: Response)
    ensures r.status == 200
    ensures r.body.Keys == {"success", "appointment", "message"}
    ensures r.body["success"] == JBool(true)
    ensures r.body["appointment"] == JObject(AppointmentRecord(data, id, now))
    ensures r.body["message"].JString? && MessagePrefix <= r.body["message"].s
  {
    var details := RenderField(Get(data, "patientName"))
      + " on " + RenderField(Get(data, "preferredDate"))
      + " at " + RenderField(Get(data, "preferredTime"));
    Response(200, map[
      "success" := JBool(true),
      "appointment" := JObject(AppointmentRecord(data, id, now)),
      "message" := JString(MessagePrefix + details)])
  }

  /** The message names the patient, the date and the time as the caller sent them. */
  lemma ScheduledMessage(data: Object, id: string, now: string, name: string, date: string, time: string)
    requires Get(data, "patientName") == Some(JString(name))
    requires Get(data, "preferredDate") == Some(JString(date))
    requires Get(data, "preferredTime") == Some(JString(time))
    requires Truthy(Get(data, "contactNumber"))
    requires name != "" && date != "" && time != ""
    ensures CreateAppointment(Some(JObject(data)), id, now).status == 200
    ensures CreateAppointment(Some(JObject(data)), id, now).body["message"]
         == JString(MessagePrefix + name + " on " + date + " at " + time)
  {
    var details := name + " on " + date + " at " + time;
    assert MessagePrefix + details == MessagePrefix + name + " on " + date + " at " + time;
  }

  // ---------------------------------------------------------------------
  // GET

  /** The fixed list of bookable times the endpoint returns for any date. */
  const MockSlots: seq<string> := ["9:00 AM", "10:00 AM", "11:00 AM", "2:00 PM", "3:00 PM", "4:00 PM", "5:00 PM"]

  /** GET: `date || today`, where `date` is the query parameter (None when absent). */
  function Availability(date: Option<string>, today: string): (r: Object)
    ensures r.Keys == {"date", "availableSlots", "message"}
    ensures r["date"] == JString(if date.Some? && date.value != "" then date.value else today)
    ensures r["availableSlots"].JArray? && |r["availableSlots"].items| == |MockSlots|
    ensures forall i | 0 <= i < |MockSlots| :: r["availableSlots"].items[i] == JString(MockSlots[i])
  {
    map[
      "date" := JString(if date.Some? && date.value != "" then date.value else today),
      "availableSlots" := JArray(seq(|MockSlots|, i requires 0 <= i < |MockSlots| => JString(MockSlots[i]))),
      "message" := JString("Available appointment slots retrieved successfully")]
  }

  /** The hour of each fixed time, on the 12-hour clock; the first three are AM, the rest PM. */
  const MockHours: seq<nat> := [9, 10, 11, 2, 3, 4, 5]

  /**
   * The fixed list ignores the calendar: every time in it is a weekday slot
   * start, but only the three morning times are Saturday slot starts, and the
   * list is returned even for a Sunday.
   */
  lemma MockSlotsAgainstCalendar()
    ensures forall i | 0 <= i < |MockSlots| ::
              var start := ClockFacts.Hour24(MockHours[i], i >= 3) * 60;
              && ConvertTo24Hour(MockSlots[i]) == ClockFacts.ClockText(start) + ":00"
              && start in CalendarFacts.WeekdayStarts
              && (start in CalendarFacts.SaturdayStarts <==> i < 3)
  {
    forall i | 0 <= i < |MockSlots|
      ensures var start := ClockFacts.Hour24(MockHours[i], i >= 3) * 60;
              && ConvertTo24Hour(MockSlots[i]) == ClockFacts.ClockText(start) + ":00"
              && start in CalendarFacts.WeekdayStarts
              && (start in CalendarFacts.SaturdayStarts <==> i < 3)
    {
      MockSlotTime(i);
      MockSlotStart(i);
    }
  }

  lemma MockSlotTime(i: nat)
    requires i < |MockSlots|
    ensures ConvertTo24Hour(MockSlots[i]) == ClockFacts.ClockText(ClockFacts.Hour24(MockHours[i], i >= 3) * 60) + ":00"
  {
    var modifier := if i >= 3 then "PM" else "AM";
    MockSlotText(i);
    var start := ClockFacts.Hour24(MockHours[i], i >= 3) * 60;
    ClockFacts.StartTime(MockSlots[i], MockHours[i], Some(0), Some(modifier), start);
  }

  lemma MockSlotStart(i: nat)
    requires i < |MockSlots|
    ensures var start := ClockFacts.Hour24(MockHours[i], i >= 3) * 60;
            start in CalendarFacts.WeekdayStarts && (start in CalendarFacts.SaturdayStarts <==> i < 3)
  {
  }

  /** Each fixed time is the 12-hour text of its hour at minute zero. */
  lemma MockSlotText(i: nat)
    requires i < |MockSlots|
    ensures MockSlots[i] == ClockFacts.TwelveHourText(MockHours[i], Some(0), Some(if i >= 3 then "PM" else "AM"))
  {
    assert Text.PadStart2(Text.NatToString(0)) == "00";
    if i == 0 {
      assert Text.NatToString(9) == "9";
    } else if i == 1 {
      assert Text.NatToString(10) == "10";
    } else if i == 2 {
      assert Text.NatToString(11) == "11";
    } else if i == 3 {
      assert Text.NatToString(2) == "2";
    } else if i == 4 {
      assert Text.NatToString(3) == "3";
    } else if i == 5 {
      assert Text.NatToString(4) == "4";
    } else {
      assert Text.NatToString(5) == "5";
    }
  }
}

=== FILE: arith.dfy ===
/** JavaScript integer arithmetic that differs from Dafny's: `Math.floor` division, `%`, and `Math.round` of a quotient. */
module Arith {

  /** `Math.floor(a / b)` for a positive divisor. */
  function FloorDiv(a: int, b: int): (q: int)
    requires b > 0
    ensures q * b <= a < (q + 1) * b
  {
    a / b
  }

  /** Quotient rounded toward zero, which JavaScript's `%` pairs with. */
  function TruncDiv(a: int, b: int): int
    requires b > 0
  {
    if a >= 0 then a / b else -((-a) / b)
  }

  /** JavaScript `a % b` for a positive divisor: the remainder takes the sign of `a`. */
  function JsRem(a: int, b: int): (r: int)
    requires b > 0
    ensures a >= 0 ==> 0 <= r < b
    ensures a < 0 ==> -b < r <= 0
    ensures a == TruncDiv(a, b) * b + r
  {
    if a >= 0 then a % b else -((-a) % b)
  }

  /** `Math.round(num / den)` for a positive denominator, computed exactly: halves round up. */
  function RoundDiv(num: int, den: int): (r: int)
    requires den > 0
    ensures 2 * r * den <= 2 * num + den < 2 * (r + 1) * den
  {
    (2 * num + den) / (2 * den)
  }

  /**
   * `total > 0 ? Math.round((part / total) * 100) : 0`, the attendance
   * percentage of both dashboards, as exact rational rounding.
   */
  function Percent(part: nat, total: nat): (r: int)
    ensures total == 0 ==> r == 0
    ensures total > 0 ==> 2 * r * total <= 200 * part + total < 2 * (r + 1) * total
    ensures part <= total ==> 0 <= r <= 100
    ensures 0 < part == total ==> r == 100
  {
    if total > 0 then
      var r := RoundDiv(100 * part, total);
      PercentBounds(part, total, r);
      r
    else 0
  }

  lemma PercentBounds(part: nat, total: nat, r: int)
    requires total > 0
    requires 2 * r * total <= 200 * part + total < 2 * (r + 1) * total
    ensures part <= total ==> 0 <= r <= 100
    ensures part == total ==> r == 100
  {
    FactorLess(0, 2 * (r + 1), total);
    if part <= total {
      FactorLess(2 * r, 202, total);
    }
    if part == total {
      FactorLess(201, 2 * (r + 1), total);
    }
  }

  /** Dividing both sides of `x * t < y * t` by a positive `t`. */
  lemma FactorLess(x: int, y: int, t: int)
    requires t > 0 && x * t < y * t
    ensures x < y
  {
    assert (y - x) * t == y * t - x * t;
  }
}

=== FILE: calendar_facts.dfy ===
/**
 * What the calendar helper promises: the opening schedule written out as
 * minutes after midnight, the time-string conversions on well-formed input,
 * and the 30-minute window of a booking.
 */
module CalendarFacts {
  import opened Options
  import opened Text
  import opened VoiceAiTypes
  import opened CalendarService
  import opened ClockFacts

  /**
   * Closed on Sunday, the Saturday table on Saturday, and the weekday table
   * on every other day, an unparseable date included.
   */
  lemma AvailableSlotsSchedule(day: DayOfWeek)
    ensures day == Day(0) ==> GetAvailableSlots(day) == []
    ensures day == Day(6) ==> GetAvailableSlots(day) == SlotsAtMinutes(SaturdayStarts)
    ensures day != Day(0) && day != Day(6) ==> GetAvailableSlots(day) == SlotsAtMinutes(WeekdayStarts)
  {
    if day == Day(6) {
      SaturdaySchedule();
    } else if day != Day(0) {
      WeekdaySchedule(day);
    }
  }

  lemma SaturdaySchedule()
    ensures GetAvailableSlots(Day(6)) == SlotsAtMinutes(SaturdayStarts)
  {
    OpeningHourParse();
    SaturdayClosingParse();
    LoopSlots(9, 14);
    SaturdayLoop();
  }

  lemma WeekdaySchedule(day: DayOfWeek)
    requires day != Day(0) && day != Day(6)
    ensures GetAvailableSlots(day) == SlotsAtMinutes(WeekdayStarts)
  {
    OpeningHourParse();
    WeekdayClosingParse();
    LoopSlots(9, 18);
    WeekdayLoop();
  }

  /**
   * On an open day every slot is an available 30-minute slot whose time is
   * the "HH:MM" text of its start minute.
   */
  lemma AvailableSlotTimes(day: DayOfWeek)
    requires day != Day(0)
    ensures var starts := if day == Day(6) then SaturdayStarts else WeekdayStarts;
            && |GetAvailableSlots(day)| == |starts|
            && forall i | 0 <= i < |starts| ::
                 GetAvailableSlots(day)[i] == TimeSlot(ClockText(starts[i]), true, AppointmentDuration)
  {
    AvailableSlotsSchedule(day);
    if day == Day(6) {
      HalfHourStarts(SaturdayStarts);
      SlotsAreClockTimes(SaturdayStarts);
    } else {
      HalfHourStarts(WeekdayStarts);
      SlotsAreClockTimes(WeekdayStarts);
    }
  }

  lemma HalfHourStarts(starts: seq<nat>)
    requires starts == WeekdayStarts || starts == SaturdayStarts
    ensures forall i | 0 <= i < |starts| :: starts[i] % 30 == 0
  {
  }

  /** Weekday slots start on every half hour from 09:00 to 17:00 except over lunch, in order. */
  lemma WeekdayTable()
    ensures forall m: nat :: m in WeekdayStarts <==> Offered(m, 9, 18)
    ensures forall i, j | 0 <= i < j < |WeekdayStarts| :: WeekdayStarts[i] < WeekdayStarts[j]
  {
    WeekdayLoop();
    forall m: nat
      ensures m in WeekdayStarts <==> Offered(m, 9, 18)
    {
      LoopStartsMembers(9, 18, m);
    }
    LoopStartsAscending(9, 18);
  }

  /** Saturday slots start on every half hour from 09:00 to 13:00 except over lunch, in order. */
  lemma SaturdayTable()
    ensures forall m: nat :: m in SaturdayStarts <==> Offered(m, 9, 14)
    ensures forall i, j | 0 <= i < j < |SaturdayStarts| :: SaturdayStarts[i] < SaturdayStarts[j]
  {
    SaturdayLoop();
    forall m: nat
      ensures m in SaturdayStarts <==> Offered(m, 9, 14)
    {
      LoopStartsMembers(9, 14, m);
    }
    LoopStartsAscending(9, 14);
  }

  /** Slots built from half-hour start minutes carry the clock text of those minutes. */
  lemma SlotsAreClockTimes(starts: seq<nat>)
    requires forall i | 0 <= i < |starts| :: starts[i] % 30 == 0
    ensures forall i | 0 <= i < |starts| ::
              SlotsAtMinutes(starts)[i] == TimeSlot(ClockText(starts[i]), true, AppointmentDuration)
  {
    forall i | 0 <= i < |starts|
      ensures SlotsAtMinutes(starts)[i] == TimeSlot(ClockText(starts[i]), true, AppointmentDuration)
    {
      SlotAtMinute(starts[i]);
    }
  }

  lemma SlotAtMinute(m: nat)
    requires m % 30 == 0
    ensures SlotAt(m / 60, m % 60) == TimeSlot(ClockText(m), true, AppointmentDuration)
  {
    var hour, minute := m / 60, m % 60;
    assert minute == 0 || minute == 30;
    assert hour * 60 + minute == m;
    SlotAtIsClock(hour, minute);
  }

  /** Start of every weekday slot: 09:00 to 11:30, then 13:00 to 17:00. */
  const WeekdayStarts: seq<nat> :=
    [540, 570, 600, 630, 660, 690, 780, 810, 840, 870, 900, 930, 960, 990, 1020]

  /** Start of every Saturday slot: 09:00 to 11:30, then 13:00. */
  const SaturdayStarts: seq<nat> := [540, 570, 600, 630, 660, 690, 780]

  /** An available 30-minute slot for each start time. */
  function SlotsAtMinutes(starts: seq<nat>): (slots: seq<TimeSlot>)
    ensures |slots| == |starts|
    ensures forall i | 0 <= i < |slots| :: slots[i] == SlotAt(starts[i] / 60, starts[i] % 60)
  {
    seq(|starts|, i requires 0 <= i < |starts| => SlotAt(starts[i] / 60, starts[i] % 60))
  }

  /**
   * A start minute the loop from `from` to `endHour` offers: on the half
   * hour, from the first hour up to the top of the last hour (the last hour
   * gets no half-hour slot), and not in the lunch hour.
   */
  predicate Offered(m: nat, from: nat, endHour: int)
  {
    from * 60 <= m <= (endHour - 1) * 60 && m % 30 == 0 && m / 60 != LunchHour
  }

  /** The loop offers exactly the `Offered` start minutes. */
  lemma {:induction false} LoopStartsMembers(from: nat, endHour: int, m: nat)
    ensures m in LoopStarts(from, endHour) <==> Offered(m, from, endHour)
    decreases endHour - from
  {
    if from < endHour {
      LoopStartsMembers(from + 1, endHour, m);
      HourStartsMembers(from, endHour, m);
      assert m in LoopStarts(from, endHour) <==> m in HourStarts(from, endHour) || m in LoopStarts(from + 1, endHour);
    }
  }

  /** One pass of the loop offers the `Offered` start minutes within its hour. */
  lemma HourStartsMembers(hour: nat, endHour: int, m: nat)
    requires hour < endHour
    ensures m in HourStarts(hour, endHour) <==> Offered(m, hour, endHour) && m < (hour + 1) * 60
  {
    HalfHours(hour);
    if Offered(m, hour, endHour) && m < (hour + 1) * 60 {
      WithinHour(m, hour);
    }
  }

  lemma HalfHours(hour: nat)
    ensures (hour * 60) / 60 == hour && (hour * 60) % 30 == 0
    ensures (hour * 60 + 30) / 60 == hour && (hour * 60 + 30) % 30 == 0
  {
  }

  /** The only half-hour marks within an hour are its top and its half. */
  lemma WithinHour(m: nat, hour: nat)
    requires hour * 60 <= m < (hour + 1) * 60 && m % 30 == 0
    ensures m == hour * 60 || m == hour * 60 + 30
  {
    var k := m / 30;
    assert m == 30 * k;
    assert 2 * hour <= k < 2 * hour + 2;
  }

  /** The loop's start minutes strictly increase and begin no earlier than the first hour. */
  lemma {:induction false} LoopStartsAscending(from: nat, endHour: int)
    ensures forall i | 0 <= i < |LoopStarts(from, endHour)| :: LoopStarts(from, endHour)[i] >= from * 60
    ensures forall i, j | 0 <= i < j < |LoopStarts(from, endHour)| :: LoopStarts(from, endHour)[i] < LoopStarts(from, endHour)[j]
    decreases endHour - from
  {
    if from < endHour {
      LoopStartsAscending(from + 1, endHour);
      var head := HourStarts(from, endHour);
      var tail := LoopStarts(from + 1, endHour);
      assert LoopStarts(from, endHour) == head + tail;
      assert forall i | 0 <= i < |head| :: from * 60 <= head[i] < (from + 1) * 60;
    }
  }

  /** The start minutes one pass of the loop emits for `hour`. */
  function HourStarts(hour: nat, endHour: int): seq<nat>
  {
    if hour == LunchHour then []
    else [hour * 60] + (if hour < endHour - 1 then [hour * 60 + 30] else [])
  }

  /** The hour-by-hour loop, as the start minutes it emits. */
  function LoopStarts(from: nat, endHour: int): seq<nat>
    decreases endHour - from
  {
    if from >= endHour then [] else HourStarts(from, endHour) + LoopStarts(from + 1, endHour)
  }

  /** The opening hours read "09:00", "18:00" and "14:00" as 9, 18 and 14. */
  lemma OpeningHourParse()
    ensures HourOf(WeekdayHours.start) == Some(9) && SaturdayHours.start == WeekdayHours.start
  {
    TwoDigitValue("09");
    HourOfClock("09", "00");
    assert "09" + [':'] + "00" == WeekdayHours.start;
  }

  lemma WeekdayClosingParse()
    ensures HourOf(WeekdayHours.end) == Some(18)
  {
    TwoDigitValue("18");
    HourOfClock("18", "00");
    assert "18" + [':'] + "00" == WeekdayHours.end;
  }

  lemma SaturdayClosingParse()
    ensures HourOf(SaturdayHours.end) == Some(14)
  {
    TwoDigitValue("14");
    HourOfClock("14", "00");
    assert "14" + [':'] + "00" == SaturdayHours.end;
  }

  lemma TwoDigitValue(hh: string)
    requires |hh| == 2 && AllDigits(hh)
    ensures DigitsValue(hh) == DigitValue(hh[0]) * 10 + DigitValue(hh[1])
  {
    var first := hh[..1];
    assert first[..0] == [];
    assert DigitsValue(first) == DigitValue(hh[0]);
    assert hh[..|hh| - 1] == first;
  }

  lemma HourOfClock(hh: string, mm: string)
    requires 0 < |hh| && AllDigits(hh)
    ensures HourOf(hh + [':'] + mm) == Some(DigitsValue(hh))
  {
    DigitsHaveNoSeparators(hh);
    SplitAtFirst(hh, ':', mm);
    ParseIntOfDigits(hh);
  }

  lemma WeekdayAfternoon()
    ensures LoopStarts(13, 18) == [780, 810, 840, 870, 900, 930, 960, 990, 1020]
  {
    assert LoopStarts(17, 18) == [1020];
    assert LoopStarts(16, 18) == [960, 990, 1020];
    assert LoopStarts(15, 18) == [900, 930, 960, 990, 1020];
    assert LoopStarts(14, 18) == [840, 870, 900, 930, 960, 990, 1020];
  }

  lemma WeekdayMorning()
    ensures LoopStarts(9, 18) == [540, 570, 600, 630, 660, 690] + LoopStarts(12, 18)
  {
    LoopStep11();
    LoopStep10();
    LoopStep9();
    var t := LoopStarts(12, 18);
    assert [540, 570] + ([600, 630] + ([660, 690] + t)) == [540, 570, 600, 630, 660, 690] + t;
  }

  lemma LoopStep11() ensures LoopStarts(11, 18) == [660, 690] + LoopStarts(12, 18) { }
  lemma LoopStep10() ensures LoopStarts(10, 18) == [600, 630] + LoopStarts(11, 18) { }
  lemma LoopStep9() ensures LoopStarts(9, 18) == [540, 570] + LoopStarts(10, 18) { }

  lemma WeekdayLoop()
    ensures LoopStarts(9, 18) == WeekdayStarts
  {
    WeekdayMorning();
    LunchStep();
    WeekdayAfternoon();
    WeekdayHalves();
  }

  lemma WeekdayHalves()
    ensures [540, 570, 600, 630, 660, 690] + [780, 810, 840, 870, 900, 930, 960, 990, 1020] == WeekdayStarts
  {
  }

  lemma LunchStep() ensures LoopStarts(12, 18) == LoopStarts(13, 18) { }

  lemma SaturdayLoop()
    ensures LoopStarts(9, 14) == SaturdayStarts
  {
    assert LoopStarts(13, 14) == [780];
    assert LoopStarts(12, 14) == [780];
    assert LoopStarts(11, 14) == [660, 690, 780];
    assert LoopStarts(10, 14) == [600, 630, 660, 690, 780];
    assert LoopStarts(9, 14) == [540, 570, 600, 630, 660, 690, 780];
  }

  lemma {:induction false} LoopSlots(from: nat, endHour: int)
    ensures SlotsFrom(from, endHour) == SlotsAtMinutes(LoopStarts(from, endHour))
    decreases endHour - from
  {
    if from < endHour {
      LoopSlots(from + 1, endHour);
      HourSlotsAsStarts(from, endHour);
      SlotsAtMinutesAppend(HourStarts(from, endHour), LoopStarts(from + 1, endHour));
    }
  }

  lemma HourSlotsAsStarts(hour: nat, endHour: int)
    ensures HourSlots(hour, endHour) == SlotsAtMinutes(HourStarts(hour, endHour))
  {
    if hour != LunchHour {
      assert (hour * 60) / 60 == hour && (hour * 60) % 60 == 0;
      if hour < endHour - 1 {
        assert HourStarts(hour, endHour) == [hour * 60, hour * 60 + 30];
        TwoSlots(hour);
      } else {
        assert HourStarts(hour, endHour) == [hour * 60];
      }
    }
  }

  lemma TwoSlots(hour: nat)
    ensures SlotsAtMinutes([hour * 60, hour * 60 + 30]) == [SlotAt(hour, 0), SlotAt(hour, 30)]
  {
    assert (hour * 60) / 60 == hour && (hour * 60) % 60 == 0;
    assert (hour * 60 + 30) / 60 == hour && (hour * 60 + 30) % 60 == 30;
  }

  lemma SlotsAtMinutesAppend(a: seq<nat>, b: seq<nat>)
    ensures SlotsAtMinutes(a + b) == SlotsAtMinutes(a) + SlotsAtMinutes(b)
  {
  }

  lemma SlotAtIsClock(hour: nat, minute: nat)
    requires minute == 0 || minute == 30
    ensures SlotAt(hour, minute) == TimeSlot(ClockText(hour * 60 + minute), true, AppointmentDuration)
  {
    assert (hour * 60 + minute) / 60 == hour;
    assert (hour * 60 + minute) % 60 == minute;
    assert PadStart2(NatToString(0)) == "00";
    assert PadStart2(NatToString(30)) == "30";
  }
}

=== FILE: calendar_service.dfy ===
/**
 * The dental clinic's calendar helper: bookable slots from fixed opening
 * hours, 12-hour to 24-hour time conversion, adding minutes to a time, and
 * turning an appointment request into a calendar event.
 */
module CalendarService {
  import opened Options
  import opened Text
  import opened Arith
  import opened VoiceAiTypes
  import opened Json

  /** `new Date(date).getDay()`: 0 is Sunday, 6 is Saturday; an unparseable date gives NaN. */
  datatype DayOfWeek = Day(index: int) | Unparseable

  datatype TimeSlot = TimeSlot(time: string, available: bool, duration: int)

  datatype EventStatus = Scheduled | Confirmed | Cancelled | Completed

  datatype CalendarEvent = CalendarEvent(
    id: string,
    title: string,
    start: string,
    end: string,
    patientName: string,
    contactNumber: string,
    treatmentType: Option<Json>,
    status: EventStatus)

  /** Opening and closing time of one day, as "HH:MM". */
  datatype OpeningHours = OpeningHours(start: string, end: string)

  const WeekdayHours := OpeningHours("09:00", "18:00")
  const SaturdayHours := OpeningHours("09:00", "14:00")

  /** Minutes per appointment. */
  const AppointmentDuration := 30

  /** The hour skipped for lunch. */
  const LunchHour := 12

  /** `parseInt(hhmm.split(':')[0])`. */
  function HourOf(hhmm: string): Option<int>
  {
    ParseInt(Split(hhmm, ':')[0])
  }

  /** The slot that starts at `hour`:`minute` (the minute is 0 or 30). */
  function SlotAt(hour: int, minute: int): TimeSlot
  {
    TimeSlot(PadStart2(IntToString(hour)) + (if minute == 0 then ":00" else ":30"), true, AppointmentDuration)
  }

  /** The slots one pass of the generating loop adds for `hour`. */
  function HourSlots(hour: int, endHour: int): seq<TimeSlot>
  {
    if hour == LunchHour then []
    else [SlotAt(hour, 0)] + (if hour < endHour - 1 then [SlotAt(hour, 30)] else [])
  }

  /** The loop `for (hour = from; hour < endHour; hour++)`. */
  function SlotsFrom(from: int, endHour: int): (slots: seq<TimeSlot>)
    ensures forall i | 0 <= i < |slots| :: slots[i].available && slots[i].duration == AppointmentDuration
    decreases endHour - from
  {
    if from >= endHour then [] else HourSlots(from, endHour) + SlotsFrom(from + 1, endHour)
  }

  /** `getAvailableSlots(date)`, with the date's day of the week passed in. */
  function GetAvailableSlots(day: DayOfWeek): (slots: seq<TimeSlot>)
    ensures day == Day(0) ==> slots == []
    ensures forall i | 0 <= i < |slots| :: slots[i].available && slots[i].duration == AppointmentDuration
  {
    if day == Day(0) then []
    else
      var hours := if day == Day(6) then SaturdayHours else WeekdayHours;
      match (HourOf(hours.start), HourOf(hours.end))
      case (Some(startHour), Some(endHour)) => SlotsFrom(startHour, endHour)
      // A NaN bound makes the loop condition false at once.
      case _ => []
  }

  // ---------------------------------------------------------------------
  // Time strings

  /** NaN-propagating addition. */
  function AddNumber(x: Option<int>, y: int): Option<int>
  {
    match x
    case Some(v) => Some(v + y)
    case None => None
  }

  /** `convertTo24Hour`: "H:MM AM/PM" to "HH:MM:00". */
  function ConvertTo24Hour(time12h: string): (time24: string)
  {
    // The part before the first space holds the clock, the part after it the
    // modifier; the clock splits at ':' into the hour and the minute fields.
    var parts := Split(time12h, ' ');
    var fields := Split(parts[0], ':');
    ConvertFields(fields[0], if |fields| > 1 then Some(fields[1]) else None, if |parts| > 1 then Some(parts[1]) else None)
  }

  /** The body of `convertTo24Hour` once the hour, minute and modifier fields are picked out. */
  function ConvertFields(hours: string, minutes: Option<string>, modifier: Option<string>): string
  {
    var hours12 := if hours == "12" then "00" else hours;
    var hours24 := if modifier == Some("PM") then NumberToString(AddNumber(ParseInt(hours12), 12)) else hours12;
    var minutesText := if minutes.Some? && minutes.value != "" then minutes.value else "00";
    PadStart2(hours24) + ":" + minutesText + ":00"
  }

  /** Whatever the input, the converted text ends in a ":00" seconds field. */
  lemma ConvertEndsInSeconds(time12h: string)
    ensures var time24 := ConvertTo24Hour(time12h);
            |time24| >= 3 && time24[|time24| - 3..] == ":00"
  {
  }

  /** `addMinutes(timeStr, minutes)`: the 24-hour time `minutes` later, without wrapping at midnight. */
  function AddMinutes(timeStr: string, minutes: int): (time24: string)
  {
    ShiftClock(ConvertTo24Hour(timeStr), minutes)
  }

  /** Whatever the input and the shift, the result ends in a ":00" seconds field. */
  lemma AddMinutesEndsInSeconds(timeStr: string, minutes: int)
    ensures var time24 := AddMinutes(timeStr, minutes);
            |time24| >= 3 && time24[|time24| - 3..] == ":00"
  {
  }

  /** The arithmetic half of `addMinutes`, applied to the converted "HH:MM:00" text. */
  function ShiftClock(time24: string, minutes: int): string
  {
    var fields := Split(time24, ':');
    var hours := NumberOf(fields[0]);
    var mins := if |fields| > 1 then NumberOf(fields[1]) else None;
    var total := if hours.Some? && mins.Some? then Some(hours.value * 60 + mins.value + minutes) else None;
    var newHours := if total.Some? then Some(FloorDiv(total.value, 60)) else None;
    var newMins := if total.Some? then Some(JsRem(total.value, 60)) else None;
    PadStart2(NumberToString(newHours)) + ":" + PadStart2(NumberToString(newMins)) + ":00"
  }

  // ---------------------------------------------------------------------
  // Booking

  const TitlePrefix := "Dental Appointment - "

  /**
   * `bookAppointment(request)` with the generated "apt_..." identifier passed
   * in. Nothing is checked against other bookings.
   */
  function BookAppointment(request: AppointmentRequest, id: string): (event: CalendarEvent)
    ensures event.id == id
    ensures event.status == Confirmed <==> request.isUrgent == Some(true)
    ensures event.status == Confirmed || event.status == Scheduled
    ensures TitlePrefix <= event.title && event.title[|TitlePrefix|..] == request.patientName
    ensures event.patientName == request.patientName && event.contactNumber == request.contactNumber
    ensures event.treatmentType == request.treatmentType
    ensures request.preferredDate + "T" <= event.start
    ensures request.preferredDate + "T" <= event.end
  {
    var datePart := request.preferredDate + "T";
    CalendarEvent(
      id,
      TitlePrefix + request.patientName,
      datePart + ConvertTo24Hour(request.preferredTime),
      datePart + AddMinutes(request.preferredTime, AppointmentDuration),
      request.patientName,
      request.contactNumber,
      request.treatmentType,
      if request.isUrgent == Some(true) then Confirmed else Scheduled)
  }

  /** `sendConfirmation`: a stub that reports success without sending anything. */
  function SendConfirmation(event: CalendarEvent): bool
  {
    true
  }

  /** `sendReminder`: a stub that reports success without sending anything. */
  function SendReminder(event: CalendarEvent): bool
  {
    true
  }
}

=== FILE: calls_route.dfy ===
/**
 * The call-session endpoints: starting a session (POST), updating one (PUT)
 * and listing the sessions that match a call id and a status (GET).
 */
module CallsRoute {
  import opened Options
  import opened Json
  import opened VoiceAiTypes
  import Seqs

  datatype Response = Response(status: int, body: Object)

  const DefaultCallType := JString("inquiry")

  /** The fields the server fills in before the client's fields are spread over them. */
  function SessionDefaults(callData: Object, id: string, now: string): Object
  {
    map[
      "id" := JString(id),
      "startTime" := JString(now),
      "status" := JString("active"),
      "callType" := if Truthy(Get(callData, "callType")) then callData["callType"] else DefaultCallType]
  }

  /**
   * The session object as the handler builds it: the defaults, then
   * `...callData`, so every field the client sent wins, a falsy `callType`
   * included.
   */
  function StartedSessionAsWritten(callData: Object, id: string, now: string): (s: Object)
    ensures s.Keys == callData.Keys + {"id", "startTime", "status", "callType"}
    ensures forall k | k in callData :: s[k] == callData[k]
    ensures "id" !in callData ==> s["id"] == JString(id)
    ensures "startTime" !in callData ==> s["startTime"] == JString(now)
    ensures "status" !in callData ==> s["status"] == JString("active")
    ensures "callType" !in callData ==> s["callType"] == DefaultCallType
  {
    Spread(SessionDefaults(callData, id, now), callData)
  }

  /** A client that sends an empty `callType` gets a session whose call type is empty, not "inquiry". */
  lemma FalsyCallTypeKept()
    ensures StartedSessionAsWritten(map["callType" := JString("")], "call_1", "now")["callType"] == JString("")
    ensures !Truthy(Some(StartedSessionAsWritten(map["callType" := JNull], "call_1", "now")["callType"]))
  {
  }

  /**
   * The session with the `callType || 'inquiry'` default applied after the
   * client's fields, so a session always has a truthy call type.
   */
  function StartedSession(callData: Object, id: string, now: string): (s: Object)
    ensures s.Keys == callData.Keys + {"id", "startTime", "status", "callType"}
    ensures "callType" in s && Truthy(Some(s["callType"]))
    ensures forall k | k in callData && k != "callType" :: s[k] == callData[k]
    ensures Truthy(Get(callData, "callType")) ==> s["callType"] == callData["callType"]
    ensures !Truthy(Get(callData, "callType")) ==> s["callType"] == DefaultCallType
    ensures "id" !in callData ==> s["id"] == JString(id)
    ensures "startTime" !in callData ==> s["startTime"] == JString(now)
    ensures "status" !in callData ==> s["status"] == JString("active")
  {
    var defaults := SessionDefaults(callData, id, now);
    Spread(Spread(defaults, callData), map["callType" := defaults["callType"]])
  }

  /** The correction changes the session exactly when the client sent a falsy `callType`. */
  lemma StartedSessionCorrection(callData: Object, id: string, now: string)
    ensures StartedSession(callData, id, now) == StartedSessionAsWritten(callData, id, now)
        <==> !("callType" in callData && !Truthy(Get(callData, "callType")))
  {
    var fixed := StartedSession(callData, id, now);
    var written := StartedSessionAsWritten(callData, id, now);
    if "callType" in callData && !Truthy(Get(callData, "callType")) {
      assert fixed["callType"] != written["callType"];
    } else {
      assert fixed.Keys == written.Keys;
      forall k | k in fixed
        ensures fixed[k] == written[k]
      {
      }
    }
  }

  /**
   * POST: `body` is the parsed request body (None when it is not JSON). The
   * session identifier and start time are passed in. The session is the one
   * the handler builds, so a falsy `callType` from the client is kept.
   */
  function StartCall(body: Option<Json>, id: string, now: string): (r: Response)
    ensures r.status == 500 <==> body.None? || body == Some(JNull)
    ensures r.status == 500 ==> r.body == map["error" := JString("Failed to start call session")]
    ensures r.status != 500 ==>
              && r.status == 200
              && r.body.Keys == {"success", "callSession", "message"}
              && r.body["success"] == JBool(true)
              && r.body["callSession"] == JObject(StartedSessionAsWritten(PropertiesOf(body.value).value, id, now))
  {
    if body.None? then Response(500, map["error" := JString("Failed to start call session")])
    else
      match PropertiesOf(body.value)
      case None => Response(500, map["error" := JString("Failed to start call session")])
      case Some(callData) =>
        Response(200, map[
          "success" := JBool(true),
          "callSession" := JObject(StartedSessionAsWritten(callData, id, now)),
          "message" := JString("Call session started successfully")])
  }

  /**
   * `{ id: callId, ...updateData, updatedAt }` where `updateData` is the body
   * without `callId`: a body `id` replaces the call id.
   */
  function UpdatedSession(props: Object, now: string): (s: Object)
    requires "callId" in props
    ensures s.Keys == props.Keys - {"callId"} + {"id", "updatedAt"}
    ensures "callId" !in s
    ensures s["updatedAt"] == JString(now)
    ensures s["id"] == if "id" in props then props["id"] else props["callId"]
    ensures forall k | k in props && k != "callId" && k != "updatedAt" :: s[k] == props[k]
  {
    var updateData := props - {"callId"};
    Spread(Spread(map["id" := props["callId"]], updateData), map["updatedAt" := JString(now)])
  }

  /** PUT: a falsy or missing `callId` is rejected with 400. */
  function UpdateCall(body: Option<Json>, now: string): (r: Response)
    ensures r.status in {200, 400, 500}
    ensures r.status == 500 <==> body.None? || body == Some(JNull)
    ensures r.status == 400 <==> r.status != 500 && !Truthy(Get(PropertiesOf(body.value).value, "callId"))
    ensures r.status == 400 ==> r.body == map["error" := JString("Call ID is required")]
    ensures r.status == 200 ==>
              && r.body.Keys == {"success", "callSession", "message"}
              && r.body["callSession"] == JObject(UpdatedSession(PropertiesOf(body.value).value, now))
  {
    if body.None? then Response(500, map["error" := JString("Failed to update call session")])
    else
      match PropertiesOf(body.value)
      case None => Response(500, map["error" := JString("Failed to update call session")])
      case Some(props) =>
        if !Truthy(Get(props, "callId")) then Response(400, map["error" := JString("Call ID is required")])
        else
          Response(200, map[
            "success" := JBool(true),
            "callSession" := JObject(UpdatedSession(props, now)),
            "message" := JString("Call session updated successfully")])
  }

  // ---------------------------------------------------------------------
  // Listing

  /** A query parameter filters only when it is present and non-empty. */
  predicate Filters(param: Option<string>)
  {
    param.Some? && param.value != ""
  }

  /** The session passes the `callId` and `status` query filters. */
  predicate Matches(session: CallSession, callId: Option<string>, status: Option<string>)
  {
    && (Filters(callId) ==> session.id == callId.value)
    && (Filters(status) ==> CallStatusName(session.status) == status.value)
  }

  /** `session => session.id === callId`. */
  function ById(callId: string): CallSession -> bool
  {
    (s: CallSession) => s.id == callId
  }

  /** `session => session.status === status`. */
  function ByStatus(status: string): CallSession -> bool
  {
    (s: CallSession) => CallStatusName(s.status) == status
  }

  /** The two successive `filter` calls of the GET handler. */
  function FilterSessions(sessions: seq<CallSession>, callId: Option<string>, status: Option<string>): (r: seq<CallSession>)
    ensures |r| <= |sessions|
  {
    var byId := if Filters(callId) then Seqs.Filter(sessions, ById(callId.value)) else sessions;
    if Filters(status) then Seqs.Filter(byId, ByStatus(status.value)) else byId
  }

  /** A session is listed exactly when it is one of the sessions and passes both filters. */
  lemma FilterSessionsMembership(sessions: seq<CallSession>, callId: Option<string>, status: Option<string>, session: CallSession)
    ensures session in FilterSessions(sessions, callId, status) <==> session in sessions && Matches(session, callId, status)
  {
    var byIdP := ById(callId.GetOr(""));
    var byStatusP := ByStatus(status.GetOr(""));
    var byId := if Filters(callId) then Seqs.Filter(sessions, byIdP) else sessions;
    if Filters(callId) {
      Seqs.FilterMembership(sessions, byIdP, session);
    }
    if Filters(status) {
      Seqs.FilterMembership(byId, byStatusP, session);
    }
  }

  /** The listed sessions keep the order of the full list. */
  lemma FilterSessionsSubsequence(sessions: seq<CallSession>, callId: Option<string>, status: Option<string>)
    ensures Seqs.IsSubsequence(FilterSessions(sessions, callId, status), sessions)
  {
    var byIdP := ById(callId.GetOr(""));
    var byStatusP := ByStatus(status.GetOr(""));
    var byId := if Filters(callId) then Seqs.Filter(sessions, byIdP) else sessions;
    if Filters(callId) {
      Seqs.FilterIsSubsequence(sessions, byIdP);
    } else {
      Seqs.SubsequenceReflexive(sessions);
    }
    if Filters(status) {
      Seqs.FilterIsSubsequence(byId, byStatusP);
      Seqs.SubsequenceTransitive(Seqs.Filter(byId, byStatusP), byId, sessions);
    }
  }

  /** The one stored session the handler lists, started at `now`. */
  function MockSessions(now: string): seq<CallSession>
  {
    [CallSession("call_123", None, now, None, Some(180), Appointment, Completed, None,
                 Some("Appointment scheduled for John Doe"))]
  }

  /** The JSON object a session is sent as; absent optional fields are left out. */
  function SessionJson(s: CallSession): (o: Object)
    ensures {"id", "startTime", "status", "callType"} <= o.Keys
    ensures o["id"] == JString(s.id) && o["startTime"] == JString(s.startTime)
    ensures o["status"] == JString(CallStatusName(s.status)) && o["callType"] == JString(CallTypeName(s.callType))
    ensures "duration" in o <==> s.duration.Some?
  {
    OptionalFields(s) + RequiredFields(s)
  }

  /** The four fields every session has. */
  function RequiredFields(s: CallSession): (o: Object)
    ensures o.Keys == {"id", "startTime", "status", "callType"}
    ensures "duration" !in o
  {
    map["id" := JString(s.id), "startTime" := JString(s.startTime),
        "status" := JString(CallStatusName(s.status)), "callType" := JString(CallTypeName(s.callType))]
  }

  /** The optional fields of a session that are set. */
  function OptionalFields(s: CallSession): (o: Object)
    ensures "duration" in o <==> s.duration.Some?
  {
    OptionalField("patientId", StringJson(s.patientId)) + OptionalField("endTime", StringJson(s.endTime))
    + OptionalField("duration", if s.duration.Some? then Some(JNumber(s.duration.value)) else None)
    + OptionalField("transcript", StringJson(s.transcript)) + OptionalField("outcome", StringJson(s.outcome))
  }

  /** An optional field: present with its value, or left out. */
  function OptionalField(key: string, value: Option<Json>): (o: Object)
    ensures o.Keys == if value.Some? then {key} else {}
  {
    if value.Some? then map[key := value.value] else map[]
  }

  function StringJson(value: Option<string>): Option<Json>
  {
    if value.Some? then Some(JString(value.value)) else None
  }

  /** GET with the `callId` and `status` query parameters (None when absent). */
  function ListCalls(callId: Option<string>, status: Option<string>, now: string): (r: Response)
    ensures r.status == 200
    ensures r.body.Keys == {"success", "sessions", "total"}
    ensures r.body["sessions"].JArray?
    ensures r.body["total"] == JNumber(|r.body["sessions"].items|)
    ensures |r.body["sessions"].items| <= |MockSessions(now)|
    ensures var listed := FilterSessions(MockSessions(now), callId, status);
            && |r.body["sessions"].items| == |listed|
            && forall i | 0 <= i < |listed| :: r.body["sessions"].items[i] == JObject(SessionJson(listed[i]))
  {
    var listed := FilterSessions(MockSessions(now), callId, status);
    Response(200, map[
      "success" := JBool(true),
      "sessions" := JArray(seq(|listed|, i requires 0 <= i < |listed| => JObject(SessionJson(listed[i])))),
      "total" := JNumber(|listed|)])
  }

  /** The stored session is found by its own id and status, and when neither filter is given. */
  lemma ListCallsFound(now: string)
    ensures ListCalls(None, None, now).body["total"] == JNumber(1)
    ensures ListCalls(Some("call_123"), Some("completed"), now).body["total"] == JNumber(1)
    ensures ListCalls(Some(""), Some(""), now).body["total"] == JNumber(1)
  {
    ListedTotal(None, None, now);
    ListedTotal(Some("call_123"), Some("completed"), now);
    ListedTotal(Some(""), Some(""), now);
  }

  /** Another id or another status finds nothing. */
  lemma ListCallsNotFound(now: string)
    ensures ListCalls(Some("call_456"), None, now).body["total"] == JNumber(0)
    ensures ListCalls(None, Some("active"), now).body["total"] == JNumber(0)
  {
    ListedTotal(Some("call_456"), None, now);
    ListedTotal(None, Some("active"), now);
  }

  /** The total the GET handler reports is 1 when the stored session passes both filters, and 0 otherwise. */
  lemma ListedTotal(callId: Option<string>, status: Option<string>, now: string)
    ensures ListCalls(callId, status, now).body["total"]
         == JNumber(if Matches(MockSessions(now)[0], callId, status) then 1 else 0)
  {
    var sessions := MockSessions(now);
    var listed := FilterSessions(sessions, callId, status);
    FilterSessionsMembership(sessions, callId, status, sessions[0]);
    if |listed| > 0 {
      FilterSessionsMembership(sessions, callId, status, listed[0]);
    }
  }
}

=== FILE: campus.dfy ===
/**
 * The college records the pages read: lectures and attendance marks.
 * Timestamps are integers (milliseconds since the epoch), so comparing two
 * `Date`s is comparing two integers.
 */
module Campus {
  import opened Options

  datatype Lecture = Lecture(
    id: string,
    title: string,
    description: Option<string>,
    subject: string,
    facultyId: string,
    scheduledAt: int,
    durationMinutes: int,
    roomNumber: Option<string>,
    status: string,
    /** `full_name` of the joined faculty user, when the join found one. */
    facultyName: Option<string>)

  datatype AttendanceStatus = Present | Absent | Late

  datatype Attendance = Attendance(id: string, lectureId: string, studentId: string, status: AttendanceStatus)

  /** `l => l.scheduled_at`, the order the lecture queries sort by. */
  function ScheduledAt(l: Lecture): int
  {
    l.scheduledAt
  }
}

=== FILE: clock_facts.dfy ===
/**
 * What the calendar helper's time-string conversions compute on 12-hour
 * input written as "H:MM AM", "H:MM PM", "H AM", or without a modifier.
 */
module ClockFacts {
  import opened Options
  import opened Text
  import opened Arith
  import opened VoiceAiTypes
  import opened CalendarService

  /** "HH:MM" for an hour and a minute field, each padded to two digits. */
  function ClockFields(hours: nat, minutes: nat): string
  {
    PadStart2(NatToString(hours)) + ":" + PadStart2(NatToString(minutes))
  }

  /** "HH:MM" for a number of minutes after midnight. */
  function ClockText(minutes: nat): string
  {
    ClockFields(minutes / 60, minutes % 60)
  }

  /** Reads the first two ':'-separated fields of a clock string as minutes after midnight. */
  function ClockMinutes(t: string): Option<int>
  {
    var fields := Split(t, ':');
    if |fields| < 2 then None
    else
      var hours := NumberOf(fields[0]);
      var minutes := NumberOf(fields[1]);
      if hours.Some? && minutes.Some? then Some(hours.value * 60 + minutes.value) else None
  }

  /** 12-hour input: the hour, optionally ":" and a two-digit minute, optionally " " and a modifier. */
  function TwelveHourText(hour: nat, minute: Option<nat>, modifier: Option<string>): string
  {
    ClockInput(NatToString(hour), if minute.Some? then Some(PadStart2(NatToString(minute.value))) else None, modifier)
  }

  /** An hour field, an optional minute field after ':', an optional modifier after ' '. */
  function ClockInput(h: string, m: Option<string>, modifier: Option<string>): string
  {
    (if m.Some? then h + [':'] + m.value else h) + (if modifier.Some? then [' '] + modifier.value else "")
  }

  /** The 24-hour hour: 12 counts as 0, and "PM" adds twelve. */
  function Hour24(hour: nat, pm: bool): nat
  {
    (if hour == 12 then 0 else hour) + (if pm then 12 else 0)
  }

  /**
   * The conversion reads the hour and the minute back and applies the
   * 12-hour rule: "12 AM" is hour 0, "12 PM" is hour 12, another PM hour
   * gains twelve, and only the exact modifier "PM" counts as afternoon.
   * A missing minute becomes "00".
   */
  lemma ConvertTo24HourFields(hour: nat, minute: Option<nat>, modifier: Option<string>)
    requires modifier.Some? ==> ' ' !in modifier.value
    ensures ConvertTo24Hour(TwelveHourText(hour, minute, modifier))
         == ClockFields(Hour24(hour, modifier == Some("PM")), minute.GetOr(0)) + ":00"
  {
    var h := NatToString(hour);
    var m := if minute.Some? then Some(PadStart2(NatToString(minute.value))) else None;
    DigitsHaveNoSeparators(h);
    if minute.Some? {
      PaddedHasNoSeparators(minute.value);
    }
    ConvertShape(h, m, modifier);
    ConvertFieldsOfNumbers(hour, minute, modifier);
  }

  lemma ConvertFieldsOfNumbers(hour: nat, minute: Option<nat>, modifier: Option<string>)
    ensures ConvertFields(NatToString(hour), if minute.Some? then Some(PadStart2(NatToString(minute.value))) else None, modifier)
         == ClockFields(Hour24(hour, modifier == Some("PM")), minute.GetOr(0)) + ":00"
  {
    var pm := modifier == Some("PM");
    HoursText(hour, pm);
    MinutesText(minute);
  }

  /** The hour half of the conversion. */
  lemma HoursText(hour: nat, pm: bool)
    ensures var h := NatToString(hour);
            var hours12 := if h == "12" then "00" else h;
            PadStart2(if pm then NumberToString(AddNumber(ParseInt(hours12), 12)) else hours12)
              == PadStart2(NatToString(Hour24(hour, pm)))
  {
    var h := NatToString(hour);
    HourField(hour);
    var hours12 := if h == "12" then "00" else h;
    var base := if hour == 12 then 0 else hour;
    assert ParseInt(hours12) == Some(base);
    PadZero();
    if pm {
      assert NumberToString(AddNumber(ParseInt(hours12), 12)) == NatToString(base + 12);
    } else {
      assert PadStart2(hours12) == PadStart2(NatToString(base));
    }
  }

  /** The minute half of the conversion: a missing minute reads "00". */
  lemma MinutesText(minute: Option<nat>)
    ensures var m := if minute.Some? then Some(PadStart2(NatToString(minute.value))) else None;
            (if m.Some? && m.value != "" then m.value else "00") == PadStart2(NatToString(minute.GetOr(0)))
  {
    PadZero();
    if minute.Some? {
      PadStart2Shape(NatToString(minute.value));
    }
  }

  /** The conversion on separator-free pieces: where each piece ends up. */
  lemma ConvertShape(h: string, m: Option<string>, modifier: Option<string>)
    requires ' ' !in h && ':' !in h
    requires m.Some? ==> ' ' !in m.value && ':' !in m.value
    requires modifier.Some? ==> ' ' !in modifier.value
    ensures ConvertTo24Hour(ClockInput(h, m, modifier)) == ConvertFields(h, m, modifier)
  {
    var time := if m.Some? then h + [':'] + m.value else h;
    TimeFields(h, m);
    assert ' ' !in time;
    var input := ClockInput(h, m, modifier);
    if modifier.Some? {
      SplitPair(time, ' ', modifier.value);
      assert input == time + [' '] + modifier.value;
    } else {
      SplitWithoutSeparator(time, ' ');
      assert input == time;
    }
    ConvertOfSplits(input, time, h, m, modifier);
  }

  /** The conversion reads its three fields off the two splits. */
  lemma ConvertOfSplits(input: string, time: string, h: string, m: Option<string>, modifier: Option<string>)
    requires Split(input, ' ') == [time] + (if modifier.Some? then [modifier.value] else [])
    requires Split(time, ':') == [h] + (if m.Some? then [m.value] else [])
    ensures ConvertTo24Hour(input) == ConvertFields(h, m, modifier)
  {
    var parts := Split(input, ' ');
    assert parts[0] == time;
    var fields := Split(parts[0], ':');
    assert fields[0] == h;
  }

  lemma TimeFields(h: string, m: Option<string>)
    requires ' ' !in h && ':' !in h
    requires m.Some? ==> ' ' !in m.value && ':' !in m.value
    ensures Split(if m.Some? then h + [':'] + m.value else h, ':') == [h] + (if m.Some? then [m.value] else [])
  {
    if m.Some? {
      SplitPair(h, ':', m.value);
    } else {
      SplitWithoutSeparator(h, ':');
    }
  }

  lemma SplitPair(a: string, sep: char, b: string)
    requires sep !in a && sep !in b
    ensures Split(a + [sep] + b, sep) == [a, b]
  {
    SplitAtFirst(a, sep, b);
    SplitWithoutSeparator(b, sep);
  }

  /** The hour field is "12" exactly for hour 12, and reads back as its value; "00" reads as 0. */
  lemma HourField(hour: nat)
    ensures (NatToString(hour) == "12") == (hour == 12)
    ensures ParseInt(NatToString(hour)) == Some(hour)
    ensures ParseInt("00") == Some(0)
  {
    Twelve();
    if NatToString(hour) == "12" {
      NatToStringInjective(hour, 12);
    }
    ParseIntOfNatToString(hour);
    DoubleZero();
  }

  lemma DoubleZero()
    ensures ParseInt("00") == Some(0)
  {
    ParseIntOfDigits("00");
    assert "00"[..1] == "0";
  }

  /**
   * Adding minutes to a well-formed 12-hour time gives the 24-hour clock
   * text of the shifted minute count; past midnight the hour keeps counting
   * (24, 25, ...) rather than wrapping.
   */
  lemma AddMinutesFields(time: string, hour: nat, minute: Option<nat>, modifier: Option<string>, n: int)
    requires time == TwelveHourText(hour, minute, modifier)
    requires modifier.Some? ==> ' ' !in modifier.value
    requires Hour24(hour, modifier == Some("PM")) * 60 + minute.GetOr(0) + n >= 0
    ensures AddMinutes(time, n) == ClockText(Hour24(hour, modifier == Some("PM")) * 60 + minute.GetOr(0) + n) + ":00"
  {
    ConvertTo24HourFields(hour, minute, modifier);
    ShiftOfConverted(time, Hour24(hour, modifier == Some("PM")), minute.GetOr(0), n);
  }

  /** Adding minutes to any text that converts to "HH:MM:00". */
  lemma ShiftOfConverted(t: string, hours: nat, minutes: nat, n: int)
    requires ConvertTo24Hour(t) == ClockFields(hours, minutes) + ":00"
    requires hours * 60 + minutes + n >= 0
    ensures AddMinutes(t, n) == ClockText(hours * 60 + minutes + n) + ":00"
  {
    ShiftClockFields(hours, minutes, n);
  }

  lemma ShiftClockFields(hours: nat, minutes: nat, n: int)
    requires hours * 60 + minutes + n >= 0
    ensures ShiftClock(ClockFields(hours, minutes) + ":00", n) == ClockText(hours * 60 + minutes + n) + ":00"
  {
    var total: nat := hours * 60 + minutes + n;
    FieldNumbers(hours, minutes);
    ShiftClockOfNumbers(ClockFields(hours, minutes) + ":00", hours, minutes, n);
    WholeHours(total);
    assert ClockText(total) == ClockFields(total / 60, total % 60);
  }

  /** Where the two numbers read from the 24-hour text end up. */
  lemma ShiftClockOfNumbers(time24: string, hours: int, minutes: int, n: int)
    requires |Split(time24, ':')| >= 2
    requires NumberOf(Split(time24, ':')[0]) == Some(hours)
    requires NumberOf(Split(time24, ':')[1]) == Some(minutes)
    ensures ShiftClock(time24, n)
         == PadStart2(NumberToString(Some(FloorDiv(hours * 60 + minutes + n, 60)))) + ":"
          + PadStart2(NumberToString(Some(JsRem(hours * 60 + minutes + n, 60)))) + ":00"
  {
    var fields := Split(time24, ':');
    var x := NumberOf(fields[0]);
    var y := NumberOf(fields[1]);
    assert x.value == hours && y.value == minutes;
  }

  /** Floor division and the truncating remainder agree with Dafny's on a non-negative count. */
  lemma WholeHours(total: nat)
    ensures FloorDiv(total, 60) == total / 60 && JsRem(total, 60) == total % 60
    ensures NumberToString(Some(total / 60)) == NatToString(total / 60)
    ensures NumberToString(Some(total % 60)) == NatToString(total % 60)
  {
    var q := FloorDiv(total, 60);
    assert q == total / 60;
  }

  /** "HH:MM:00" splits into its three fields. */
  lemma ClockFieldsSplit(hours: nat, minutes: nat)
    ensures Split(ClockFields(hours, minutes) + ":00", ':')
         == [PadStart2(NatToString(hours)), PadStart2(NatToString(minutes)), "00"]
  {
    var a := PadStart2(NatToString(hours));
    var b := PadStart2(NatToString(minutes));
    PaddedHasNoSeparators(hours);
    PaddedHasNoSeparators(minutes);
    SplitPair(b, ':', "00");
    SplitAtFirst(a, ':', b + [':'] + "00");
    assert ClockFields(hours, minutes) + ":00" == a + [':'] + (b + [':'] + "00");
  }

  /** Reading "HH:MM:00" back as minutes gives the hour and minute fields. */
  lemma ClockMinutesOfFields(hours: nat, minutes: nat)
    ensures ClockMinutes(ClockFields(hours, minutes) + ":00") == Some(hours * 60 + minutes)
  {
    FieldNumbers(hours, minutes);
    ClockMinutesOfSplit(ClockFields(hours, minutes) + ":00", hours, minutes);
  }

  lemma FieldNumbers(hours: nat, minutes: nat)
    ensures |Split(ClockFields(hours, minutes) + ":00", ':')| >= 2
    ensures NumberOf(Split(ClockFields(hours, minutes) + ":00", ':')[0]) == Some(hours)
    ensures NumberOf(Split(ClockFields(hours, minutes) + ":00", ':')[1]) == Some(minutes)
  {
    ClockFieldsSplit(hours, minutes);
    NumberOfPadded(hours);
    NumberOfPadded(minutes);
  }

  lemma ClockMinutesOfSplit(t: string, hours: int, minutes: int)
    requires |Split(t, ':')| >= 2
    requires NumberOf(Split(t, ':')[0]) == Some(hours) && NumberOf(Split(t, ':')[1]) == Some(minutes)
    ensures ClockMinutes(t) == Some(hours * 60 + minutes)
  {
    var fields := Split(t, ':');
    var x := NumberOf(fields[0]);
    var y := NumberOf(fields[1]);
    assert x.value == hours;
    assert y.value == minutes;
    assert ClockMinutes(t).Some? && ClockMinutes(t).value == hours * 60 + minutes;
  }

  /** The clock text of a minute count reads back as that count. */
  lemma ClockTextRoundTrip(minutes: nat)
    ensures ClockMinutes(ClockText(minutes) + ":00") == Some(minutes)
  {
    assert ClockText(minutes) == ClockFields(minutes / 60, minutes % 60);
    ClockFieldsRoundTrip(minutes);
  }

  lemma ClockFieldsRoundTrip(minutes: nat)
    ensures ClockMinutes(ClockFields(minutes / 60, minutes % 60) + ":00") == Some(minutes)
  {
    var q := minutes / 60;
    var r := minutes % 60;
    assert q * 60 + r == minutes;
    ClockMinutesOfFields(q, r);
  }

  /**
   * A booking for a well-formed 12-hour time starts at that time on the
   * requested date; `start` is the time as minutes after midnight.
   */
  lemma BookingStart(request: AppointmentRequest, id: string, hour: nat, minute: Option<nat>, modifier: Option<string>, start: nat)
    requires request.preferredTime == TwelveHourText(hour, minute, modifier)
    requires modifier.Some? ==> ' ' !in modifier.value
    requires minute.GetOr(0) < 60
    requires start == Hour24(hour, modifier == Some("PM")) * 60 + minute.GetOr(0)
    ensures BookAppointment(request, id).start == request.preferredDate + "T" + ClockText(start) + ":00"
  {
    StartTime(request.preferredTime, hour, minute, modifier, start);
    BookingTimes(request, id, ClockText(start), ClockText(start + AppointmentDuration), true);
  }

  /** The same booking ends thirty minutes after it starts, on the same date. */
  lemma BookingEnd(request: AppointmentRequest, id: string, hour: nat, minute: Option<nat>, modifier: Option<string>, start: nat)
    requires request.preferredTime == TwelveHourText(hour, minute, modifier)
    requires modifier.Some? ==> ' ' !in modifier.value
    requires start == Hour24(hour, modifier == Some("PM")) * 60 + minute.GetOr(0)
    ensures BookAppointment(request, id).end == request.preferredDate + "T" + ClockText(start + AppointmentDuration) + ":00"
  {
    var total := start + AppointmentDuration;
    assert total == Hour24(hour, modifier == Some("PM")) * 60 + minute.GetOr(0) + AppointmentDuration;
    EndTime(request.preferredTime, hour, minute, modifier);
    BookingTimes(request, id, ClockText(start), ClockText(total), false);
  }

  lemma StartTime(time: string, hour: nat, minute: Option<nat>, modifier: Option<string>, start: int)
    requires time == TwelveHourText(hour, minute, modifier)
    requires modifier.Some? ==> ' ' !in modifier.value
    requires minute.GetOr(0) < 60
    requires start == Hour24(hour, modifier == Some("PM")) * 60 + minute.GetOr(0)
    ensures ConvertTo24Hour(time) == ClockText(start) + ":00"
  {
    ConvertTo24HourFields(hour, minute, modifier);
    ClockTextOfFields(Hour24(hour, modifier == Some("PM")), minute.GetOr(0));
  }

  lemma EndTime(time: string, hour: nat, minute: Option<nat>, modifier: Option<string>)
    requires time == TwelveHourText(hour, minute, modifier)
    requires modifier.Some? ==> ' ' !in modifier.value
    ensures AddMinutes(time, AppointmentDuration)
         == ClockText(Hour24(hour, modifier == Some("PM")) * 60 + minute.GetOr(0) + AppointmentDuration) + ":00"
  {
    AddMinutesFields(time, hour, minute, modifier, AppointmentDuration);
  }

  /** One end of the booked event, once the converted time text is known. */
  lemma BookingTimes(request: AppointmentRequest, id: string, start: string, end: string, atStart: bool)
    requires atStart ==> ConvertTo24Hour(request.preferredTime) == start + ":00"
    requires !atStart ==> AddMinutes(request.preferredTime, AppointmentDuration) == end + ":00"
    ensures atStart ==> BookAppointment(request, id).start == request.preferredDate + "T" + start + ":00"
    ensures !atStart ==> BookAppointment(request, id).end == request.preferredDate + "T" + end + ":00"
  {
    var date := request.preferredDate + "T";
    if atStart {
      assert date + (start + ":00") == date + start + ":00";
    } else {
      assert date + (end + ":00") == date + end + ":00";
    }
  }

  /** With the minute below 60, the two fields are the clock text of their minute count. */
  lemma ClockTextOfFields(hours: nat, minutes: nat)
    requires minutes < 60
    ensures ClockText(hours * 60 + minutes) == ClockFields(hours, minutes)
  {
    assert (hours * 60 + minutes) / 60 == hours;
    assert (hours * 60 + minutes) % 60 == minutes;
  }

  lemma Twelve()
    ensures NatToString(12) == "12"
  {
    assert NatToString(1) == "1";
  }

  lemma PadZero()
    ensures PadStart2(NatToString(0)) == "00" && PadStart2("00") == "00"
  {
  }

  lemma DigitsHaveNoSeparators(s: string)
    requires AllDigits(s)
    ensures ' ' !in s && ':' !in s
  {
  }

  lemma PaddedHasNoSeparators(n: nat)
    ensures ' ' !in PadStart2(NatToString(n)) && ':' !in PadStart2(NatToString(n))
  {
    var s := NatToString(n);
    var r := PadStart2(s);
    forall i | 0 <= i < |r|
      ensures r[i] != ' ' && r[i] != ':'
    {
      if i >= |r| - |s| {
        assert r[i] == s[i - (|r| - |s|)];
      }
    }
  }
}

=== FILE: duration_facts.dfy ===
/** What the "m:ss" rendering of a call's length preserves: it reads back as the same number of seconds. */
module DurationFacts {
  import opened Options
  import opened Text
  import Arith
  import opened ReceptionistDashboard

  /** For a non-negative count, the minutes are unpadded and the seconds are exactly two digits. */
  lemma FormatDurationFields(seconds: nat)
    ensures FormatDuration(seconds) == NatToString(seconds / 60) + ":" + PadStart2(NatToString(seconds % 60))
    ensures |PadStart2(NatToString(seconds % 60))| == 2
  {
    var q := Arith.FloorDiv(seconds, 60);
    assert q == seconds / 60;
    PadStart2Shape(NatToString(seconds % 60));
  }

  /** The rendered duration splits into its two fields. */
  lemma FormatDurationSplit(seconds: nat)
    ensures Split(FormatDuration(seconds), ':') == [NatToString(seconds / 60), PadStart2(NatToString(seconds % 60))]
  {
    var minutes := NatToString(seconds / 60);
    var rest := PadStart2(NatToString(seconds % 60));
    FormatDurationFields(seconds);
    PaddedNoColon(seconds % 60);
    SplitFields(minutes, rest);
  }

  /** `a:b` with colon-free fields splits into `[a, b]`. */
  lemma SplitFields(a: string, b: string)
    requires AllDigits(a) && ':' !in b
    ensures Split(a + ":" + b, ':') == [a, b]
  {
    assert ':' !in a;
    SplitAtFirst(a, ':', b);
    SplitWithoutSeparator(b, ':');
    assert a + ":" + b == a + [':'] + b;
  }

  lemma PaddedNoColon(n: nat)
    ensures ':' !in PadStart2(NatToString(n))
  {
    var s := NatToString(n);
    var r := PadStart2(s);
    PadStart2Shape(s);
    forall i | 0 <= i < |r|
      ensures r[i] != ':'
    {
      if i >= |r| - |s| {
        assert r[i] == s[i - (|r| - |s|)];
      }
    }
  }

  /** Rendering a non-negative duration and reading it back gives the same number of seconds. */
  lemma FormatDurationRoundTrip(seconds: nat)
    ensures ParseDuration(FormatDuration(seconds)) == Some(seconds)
  {
    FormatDurationSplit(seconds);
    ReadBack(seconds / 60, seconds % 60, FormatDuration(seconds), seconds);
  }

  /** Text that splits into the rendered minutes and seconds reads back as their total. */
  lemma ReadBack(minutes: nat, seconds: nat, text: string, total: int)
    requires Split(text, ':') == [NatToString(minutes), PadStart2(NatToString(seconds))]
    requires total == minutes * 60 + seconds
    ensures ParseDuration(text) == Some(total)
  {
    NumberOfDigits(NatToString(minutes));
    DigitsValueOfNatToString(minutes);
    NumberOfPadded(seconds);
    ParseDurationOfFields(text, NatToString(minutes), PadStart2(NatToString(seconds)), minutes, seconds, total);
  }

  lemma ParseDurationOfFields(text: string, a: string, b: string, minutes: int, seconds: int, total: int)
    requires Split(text, ':') == [a, b]
    requires NumberOf(a) == Some(minutes) && NumberOf(b) == Some(seconds)
    requires total == minutes * 60 + seconds
    ensures ParseDuration(text) == Some(total)
  {
    var m := NumberOf(a);
    var s := NumberOf(b);
    assert m.value == minutes && s.value == seconds;
  }

  /** Three minutes render as "3:00". */
  lemma FormatThreeMinutes()
    ensures FormatDuration(180) == "3:00"
  {
    FormatDurationFields(180);
    assert NatToString(3) == "3";
    assert NatToString(0) == "0";
  }
}

=== FILE: faculty_dashboard.dfy ===
/**
 * The faculty dashboard: lecture counts, the recent and upcoming lists and
 * the average attendance over the faculty member's lectures.
 */
module FacultyDashboard {
  import opened Options
  import opened Arith
  import opened Campus
  import StudentLectures
  import Seqs

  datatype FacultyStats = FacultyStats(totalLectures: nat, upcomingLectures: nat, totalStudents: nat, averageAttendance: int)

  datatype Dashboard = Dashboard(stats: FacultyStats, recent: seq<Lecture>, upcoming: seq<Lecture>)

  /** How many lectures each list shows. */
  const ListLength := 5

  /** Scheduled after `now` and not cancelled. */
  predicate Pending(l: Lecture, now: int)
  {
    StudentLectures.IsUpcoming(l.scheduledAt, now) && l.status != "cancelled"
  }

  function ByPending(now: int): Lecture -> bool
  {
    (l: Lecture) => Pending(l, now)
  }

  function ForLecture(lectureId: string): Attendance -> bool
  {
    (a: Attendance) => a.lectureId == lectureId
  }

  function PresentFor(lectureId: string): Attendance -> bool
  {
    (a: Attendance) => a.lectureId == lectureId && a.status == Present
  }

  /**
   * The loop over the lectures: every attendance mark of each lecture, and
   * the marks among them that are "present" (a late mark is not).
   */
  function AttendanceTotals(lectures: seq<Lecture>, marks: seq<Attendance>): (totals: (nat, nat))
    ensures totals.1 <= totals.0
    ensures |lectures| == 0 ==> totals == (0, 0)
    decreases |lectures|
  {
    if |lectures| == 0 then (0, 0)
    else
      var rest := AttendanceTotals(lectures[1..], marks);
      var id := lectures[0].id;
      PresentAtMostMarked(marks, id);
      (Seqs.Count(marks, ForLecture(id)) + rest.0, Seqs.Count(marks, PresentFor(id)) + rest.1)
  }

  /** For one lecture, the present marks are among its marks. */
  lemma {:induction false} PresentAtMostMarked(marks: seq<Attendance>, lectureId: string)
    ensures Seqs.Count(marks, PresentFor(lectureId)) <= Seqs.Count(marks, ForLecture(lectureId))
    decreases |marks|
  {
    if |marks| > 0 {
      PresentAtMostMarked(marks[1..], lectureId);
    }
  }

  /** The ids of the lectures, in order. */
  function LectureIds(lectures: seq<Lecture>): (ids: seq<string>)
    ensures |ids| == |lectures|
    ensures forall i | 0 <= i < |lectures| :: ids[i] == lectures[i].id
  {
    seq(|lectures|, i requires 0 <= i < |lectures| => lectures[i].id)
  }

  /** Marks of any of the lectures `ids`. */
  function OfLectures(ids: seq<string>): Attendance -> bool
  {
    (a: Attendance) => a.lectureId in ids
  }

  /** "present" marks of any of the lectures `ids`. */
  function PresentOfLectures(ids: seq<string>): Attendance -> bool
  {
    (a: Attendance) => a.lectureId in ids && a.status == Present
  }

  /**
   * What the loop adds up: over lectures with distinct ids, the first total
   * is the number of marks of any of them, and the second the number of
   * those marks that are "present".
   */
  lemma {:induction false} AttendanceTotalsCount(lectures: seq<Lecture>, marks: seq<Attendance>)
    requires Seqs.Distinct(LectureIds(lectures))
    ensures AttendanceTotals(lectures, marks).0 == Seqs.Count(marks, OfLectures(LectureIds(lectures)))
    ensures AttendanceTotals(lectures, marks).1 == Seqs.Count(marks, PresentOfLectures(LectureIds(lectures)))
    decreases |lectures|
  {
    var ids := LectureIds(lectures);
    if |lectures| == 0 {
      Seqs.CountNone(marks, OfLectures(ids));
      Seqs.CountNone(marks, PresentOfLectures(ids));
    } else {
      var rest := lectures[1..];
      var restIds := LectureIds(rest);
      var id := lectures[0].id;
      assert ids == [id] + restIds;
      assert id !in restIds by {
        forall j | 0 <= j < |restIds|
          ensures restIds[j] != id
        {
          assert restIds[j] == ids[j + 1];
        }
      }
      assert Seqs.Distinct(restIds) by {
        forall j, k | 0 <= j < k < |restIds|
          ensures restIds[j] != restIds[k]
        {
          assert restIds[j] == ids[j + 1] && restIds[k] == ids[k + 1];
        }
      }
      AttendanceTotalsCount(rest, marks);
      forall i | 0 <= i < |marks|
        ensures OfLectures(ids)(marks[i]) == (ForLecture(id)(marks[i]) || OfLectures(restIds)(marks[i]))
        ensures !(ForLecture(id)(marks[i]) && OfLectures(restIds)(marks[i]))
        ensures PresentOfLectures(ids)(marks[i]) == (PresentFor(id)(marks[i]) || PresentOfLectures(restIds)(marks[i]))
        ensures !(PresentFor(id)(marks[i]) && PresentOfLectures(restIds)(marks[i]))
      {
      }
      Seqs.CountUnion(marks, ForLecture(id), OfLectures(restIds), OfLectures(ids));
      Seqs.CountUnion(marks, PresentFor(id), PresentOfLectures(restIds), PresentOfLectures(ids));
    }
  }

  /**
   * `fetchDashboardData`: `lectures` is the faculty member's lectures as the
   * query returns them (latest first), `marks` the attendance table, and
   * `studentCount` the number of students the user query returns.
   */
  function BuildDashboard(lectures: seq<Lecture>, marks: seq<Attendance>, studentCount: nat, now: int): (d: Dashboard)
    ensures d.stats.totalLectures == |lectures|
    ensures d.stats.upcomingLectures == Seqs.Count(lectures, ByPending(now))
    ensures d.stats.totalStudents == studentCount
    ensures 0 <= d.stats.averageAttendance <= 100
    ensures AttendanceTotals(lectures, marks).0 == 0 ==> d.stats.averageAttendance == 0
    ensures var (total, present) := AttendanceTotals(lectures, marks);
            total > 0 ==> 2 * d.stats.averageAttendance * total <= 200 * present + total < 2 * (d.stats.averageAttendance + 1) * total
    ensures d.recent <= lectures && |d.recent| == if |lectures| < ListLength then |lectures| else ListLength
    ensures |d.upcoming| == if d.stats.upcomingLectures < ListLength then d.stats.upcomingLectures else ListLength
    ensures forall i | 0 <= i < |d.upcoming| :: Pending(d.upcoming[i], now)
  {
    var pending := Seqs.Filter(lectures, ByPending(now));
    var (total, present) := AttendanceTotals(lectures, marks);
    var stats := FacultyStats(|lectures|, |pending|, studentCount, if total > 0 then Percent(present, total) else 0);
    Dashboard(stats, Seqs.Take(lectures, ListLength), Seqs.Take(pending, ListLength))
  }

  /** A prefix is a subsequence. */
  lemma PrefixIsSubsequence(a: seq<Lecture>, b: seq<Lecture>)
    requires a <= b
    ensures Seqs.IsSubsequence(a, b)
  {
    var idx := seq(|a|, i => i);
    assert Seqs.Embeds(idx, a, b);
  }

  /**
   * The upcoming list holds pending lectures of the faculty member in the
   * fetched order; when at most five are pending it holds every one of them.
   * With the list ordered latest first, both lists are too, so the
   * upcoming list shows the furthest lectures rather than the nearest.
   */
  lemma UpcomingList(lectures: seq<Lecture>, marks: seq<Attendance>, studentCount: nat, now: int)
    ensures var d := BuildDashboard(lectures, marks, studentCount, now);
            && Seqs.IsSubsequence(d.upcoming, lectures)
            && (d.stats.upcomingLectures <= ListLength ==> forall l :: l in d.upcoming <==> l in lectures && Pending(l, now))
    ensures var d := BuildDashboard(lectures, marks, studentCount, now);
            Seqs.Descending(lectures, ScheduledAt) ==>
              Seqs.Descending(d.recent, ScheduledAt) && Seqs.Descending(d.upcoming, ScheduledAt)
  {
    var d := BuildDashboard(lectures, marks, studentCount, now);
    var pending := Seqs.Filter(lectures, ByPending(now));
    Seqs.FilterIsSubsequence(lectures, ByPending(now));
    PrefixIsSubsequence(d.upcoming, pending);
    Seqs.SubsequenceTransitive(d.upcoming, pending, lectures);
    PrefixIsSubsequence(d.recent, lectures);
    Seqs.SubsequenceKeepsOrder(d.upcoming, lectures, ScheduledAt);
    Seqs.SubsequenceKeepsOrder(d.recent, lectures, ScheduledAt);
    if |pending| <= ListLength {
      forall l
        ensures l in d.upcoming <==> l in lectures && Pending(l, now)
      {
        Seqs.FilterMembership(lectures, ByPending(now), l);
      }
    }
  }

  /**
   * On the latest-first list the query returns, the upcoming list shows the
   * furthest pending lectures: a pending lecture left out is scheduled no
   * later than any lecture shown.
   */
  lemma UpcomingAreFurthest(lectures: seq<Lecture>, marks: seq<Attendance>, studentCount: nat, now: int)
    requires Seqs.Descending(lectures, ScheduledAt)
    ensures var d := BuildDashboard(lectures, marks, studentCount, now);
            forall l, u | l in lectures && Pending(l, now) && l !in d.upcoming && u in d.upcoming ::
              l.scheduledAt <= u.scheduledAt
  {
    var d := BuildDashboard(lectures, marks, studentCount, now);
    var pending := Seqs.Filter(lectures, ByPending(now));
    Seqs.FilterIsSubsequence(lectures, ByPending(now));
    Seqs.SubsequenceKeepsOrder(pending, lectures, ScheduledAt);
    assert d.upcoming == Seqs.Take(pending, ListLength);
    forall l, u | l in lectures && Pending(l, now) && l !in d.upcoming && u in d.upcoming
      ensures l.scheduledAt <= u.scheduledAt
    {
      Seqs.FilterMembership(lectures, ByPending(now), l);
      var j :| 0 <= j < |pending| && pending[j] == l;
      var i :| 0 <= i < |d.upcoming| && d.upcoming[i] == u;
      assert pending[i] == u;
      assert ScheduledAt(pending[i]) >= ScheduledAt(pending[j]);
    }
  }

  /** One present and one late mark on a single lecture give 50 percent: lateness does not count as attendance. */
  lemma LateIsNotPresent(l: Lecture, studentCount: nat, now: int)
    ensures var marks := [Attendance("a1", l.id, "s1", Present), Attendance("a2", l.id, "s2", Late)];
            BuildDashboard([l], marks, studentCount, now).stats.averageAttendance == 50
  {
    var marks := [Attendance("a1", l.id, "s1", Present), Attendance("a2", l.id, "s2", Late)];
    assert Seqs.Count(marks, ForLecture(l.id)) == 2;
    assert Seqs.Count(marks, PresentFor(l.id)) == 1;
    assert AttendanceTotals([l], marks) == (2, 1);
  }
}

=== FILE: home_page.dfy ===
/** The landing page: once the session is known, a signed-in user is sent to their role's dashboard. */
module HomePage {
  import opened Options
  import Navbar

  /** The roles the landing page sends to a dashboard. */
  const KnownRoles: set<string> := {"super_admin", "college_admin", "faculty", "student"}

  /** The redirect target for each role, and the login page for any other. */
  function RoleRedirect(role: string): (target: string)
    ensures target == "/auth/login" <==> role !in KnownRoles
  {
    if role == "super_admin" then "/admin/dashboard"
    else if role == "college_admin" then "/college/dashboard"
    else if role == "faculty" then "/faculty/dashboard"
    else if role == "student" then "/student/dashboard"
    else "/auth/login"
  }

  /**
   * The effect: the one route pushed, or None while the session is loading
   * or when nobody is signed in.
   */
  function Redirect(loading: bool, user: Option<Navbar.User>): (target: Option<string>)
    ensures target.Some? <==> !loading && user.Some?
    ensures target.Some? ==> target.value == RoleRedirect(user.value.role)
  {
    if !loading && user.Some? then Some(RoleRedirect(user.value.role)) else None
  }

  /** Two different known roles are sent to two different dashboards. */
  lemma RedirectTargets(a: string, b: string)
    requires a in KnownRoles && b in KnownRoles && a != b
    ensures RoleRedirect(a) != RoleRedirect(b)
  {
  }

  /** For students and faculty the navigation bar's dashboard link is the page the home page redirects to. */
  lemma NavbarAgreesForPlainRoles(role: string)
    requires role == "student" || role == "faculty"
    ensures Navbar.DashboardHref(role) == RoleRedirect(role)
  {
    if role == "student" {
      PlainRoleAgrees("student", "/student/dashboard");
    } else {
      PlainRoleAgrees("faculty", "/faculty/dashboard");
    }
  }

  lemma PlainRoleAgrees(role: string, target: string)
    requires '_' !in role && target == "/" + role + "/dashboard"
    ensures Navbar.DashboardHref(role) == target
  {
    Navbar.PlainDashboardHref(role);
  }

  /**
   * For the two admin roles the navigation bar links elsewhere: the
   * underscore turns into a path separator, giving "/super/admin/dashboard"
   * instead of "/admin/dashboard".
   */
  lemma NavbarDisagreesForAdmins(role: string)
    requires role == "super_admin" || role == "college_admin"
    ensures Navbar.DashboardHref(role) != RoleRedirect(role)
  {
    Navbar.DashboardHrefShape(role);
  }
}

=== FILE: json.dfy ===
/**
 * JSON request and response bodies. An object is a map from keys to values,
 * so the object spread `{...a, ...b}` is the map override `a + b`: keys of
 * the later operand win.
 */
module Json {
  import opened Options
  import Text

  datatype Json =
    | JNull
    | JBool(b: bool)
    | JNumber(n: int)
    | JString(s: string)
    | JArray(items: seq<Json>)
    | JObject(fields: map<string, Json>)

  type Object = map<string, Json>

  /** Property access: `obj.key`, None standing for `undefined`. */
  function Get(obj: Object, key: string): (v: Option<Json>)
    ensures v.Some? <==> key in obj
  {
    if key in obj then Some(obj[key]) else None
  }

  /**
   * What reading or spreading the properties of a parsed body sees: `null`
   * throws (None), an object gives its fields, and the other values have none
   * of the named fields these routes read.
   */
  function PropertiesOf(v: Json): (props: Option<Object>)
    ensures props.None? <==> v == JNull
    ensures v.JObject? ==> props == Some(v.fields)
  {
    match v
    case JNull => None
    case JObject(fields) => Some(fields)
    case _ => Some(map[])
  }

  /** JavaScript truthiness of a possibly undefined value. */
  predicate Truthy(v: Option<Json>)
  {
    match v
    case None => false
    case Some(JNull) => false
    case Some(JBool(b)) => b
    case Some(JNumber(n)) => n != 0
    case Some(JString(s)) => s != ""
    case Some(_) => true
  }

  /** `{...a, ...b}`: every key of either, the value from `b` where both have it. */
  function Spread(a: Object, b: Object): (r: Object)
    ensures r.Keys == a.Keys + b.Keys
    ensures forall k | k in b :: r[k] == b[k]
    ensures forall k | k in a && k !in b :: r[k] == a[k]
  {
    a + b
  }

  /** `String(v)` as a template literal renders a value. */
  function Render(v: Json): string
    decreases v, 1
  {
    match v
    case JNull => "null"
    case JBool(b) => if b then "true" else "false"
    case JNumber(n) => Text.IntToString(n)
    case JString(s) => s
    case JArray(items) => RenderItems(items)
    case JObject(_) => "[object Object]"
  }

  /** `Array.prototype.join(',')`, where null elements render as the empty string. */
  function RenderItems(items: seq<Json>): string
    decreases items, 0
  {
    if |items| == 0 then ""
    else
      var head := if items[0] == JNull then "" else Render(items[0]);
      if |items| == 1 then head else head + "," + RenderItems(items[1..])
  }
}

=== FILE: navbar.dfy ===
/**
 * The navigation bar: the links each role sees, the dashboard link built
 * from the role name, and the role label in the profile menu.
 */
module Navbar {
  import opened Options
  import opened Text

  /** The signed-in user; only the role matters to the links. */
  datatype User = User(id: string, fullName: string, email: string, role: string)

  datatype NavLink = NavLink(name: string, href: string)

  /** `/${role.replace('_', '/')}/dashboard`. */
  function DashboardHref(role: string): string
  {
    "/" + ReplaceFirst(role, '_', '/') + "/dashboard"
  }

  /** Only the first underscore of the role becomes a slash; the rest of the role is kept. */
  lemma DashboardHrefShape(role: string)
    ensures var href := DashboardHref(role);
            && |href| == |role| + 11
            && href[0] == '/' && href[|role| + 1..] == "/dashboard"
            && forall i | 0 <= i < |role| :: href[i + 1] == (if i == IndexOf(role, '_') then '/' else role[i])
  {
    ReplaceFirstChanges(role, '_', '/');
  }

  /** The links that follow the dashboard link for each role. */
  function RoleLinks(role: string): seq<NavLink>
  {
    if role == "student" then
      [NavLink("Lectures", "/student/lectures"), NavLink("Events", "/student/events"),
       NavLink("Attendance", "/student/attendance")]
    else if role == "faculty" then
      [NavLink("My Lectures", "/faculty/lectures"), NavLink("Create Lecture", "/faculty/lectures/create"),
       NavLink("Attendance", "/faculty/attendance"), NavLink("Analytics", "/faculty/analytics")]
    else if role == "college_admin" then
      [NavLink("Events", "/college/events"), NavLink("Announcements", "/college/announcements"),
       NavLink("Users", "/college/users"), NavLink("Reports", "/college/reports")]
    else if role == "super_admin" then
      [NavLink("Colleges", "/admin/colleges"), NavLink("Users", "/admin/users"),
       NavLink("Analytics", "/admin/analytics"), NavLink("Settings", "/admin/settings")]
    else []
  }

  /** `getNavLinks`: no links without a user; otherwise the dashboard link and the role's links. */
  function GetNavLinks(user: Option<User>): (links: seq<NavLink>)
    ensures user.None? <==> links == []
    ensures user.Some? ==> links[0] == NavLink("Dashboard", DashboardHref(user.value.role))
    ensures user.Some? ==> |links| == 1 + |RoleLinks(user.value.role)|
    ensures user.Some? ==> links[1..] == RoleLinks(user.value.role)
  {
    if user.None? then []
    else [NavLink("Dashboard", DashboardHref(user.value.role))] + RoleLinks(user.value.role)
  }

  /** Four links for a student, five for faculty and both admins, and only the dashboard for any other role. */
  lemma LinkCounts(user: User)
    ensures |GetNavLinks(Some(user))| ==
              if user.role == "student" then 4
              else if user.role in {"faculty", "college_admin", "super_admin"} then 5
              else 1
  {
  }

  /** A role without an underscore is used as it is: "student" links to "/student/dashboard". */
  lemma PlainDashboardHref(role: string)
    requires '_' !in role
    ensures DashboardHref(role) == "/" + role + "/dashboard"
  {
    ReplaceFirstAbsent(role, '_', '/');
  }

  /**
   * A role `a_b` links to "/a/b/dashboard": "super_admin" to
   * "/super/admin/dashboard" and "college_admin" to "/college/admin/dashboard".
   */
  lemma SplitDashboardHref(a: string, b: string)
    requires '_' !in a
    ensures DashboardHref(a + "_" + b) == "/" + a + "/" + b + "/dashboard"
  {
    ReplaceFirstAfter(a, b, '_', '/');
  }

  /** `user.role.replace('_', ' ')`. */
  function RoleLabel(role: string): string
  {
    ReplaceFirst(role, '_', ' ')
  }

  /** The first underscore becomes a space and every other character is kept. */
  lemma RoleLabelShape(role: string)
    ensures |RoleLabel(role)| == |role|
    ensures forall i | 0 <= i < |role| :: RoleLabel(role)[i] == (if i == IndexOf(role, '_') then ' ' else role[i])
  {
    ReplaceFirstChanges(role, '_', ' ');
  }

  /**
   * A role `a_b` is labelled "a b"; later underscores in `b` stay, so
   * "super_admin" reads "super admin" and "a_b_c" reads "a b_c".
   */
  lemma RoleLabelFirstOnly(a: string, b: string)
    requires '_' !in a
    ensures RoleLabel(a + "_" + b) == a + " " + b
  {
    ReplaceFirstAfter(a, b, '_', ' ');
  }
}

=== FILE: options.dfy ===
/** The optional value used wherever the source has `undefined`, `null` or NaN. */
module Options {

  datatype Option<+T> = None | Some(value: T) {

    /** The wrapped value, or `default` when there is none (the `x || default` idiom). */
    function GetOr(default: T): T
    {
      match this
      case Some(v) => v
      case None => default
    }
  }
}

=== FILE: receptionist_dashboard.dfy ===
/**
 * The virtual receptionist dashboard: the call statistics over the listed
 * sessions and the "m:ss" rendering of a call's length.
 */
module ReceptionistDashboard {
  import opened Options
  import opened Text
  import opened Arith
  import opened VoiceAiTypes
  import Seqs

  datatype CallStats = CallStats(totalCalls: nat, appointmentsBooked: nat, averageCallDuration: int, activeNow: nat)

  /** How many sessions the recent list shows. */
  const RecentLength := 5

  // ---------------------------------------------------------------------
  // Durations

  /** `formatDuration(seconds)`: whole minutes, ':', and the remaining seconds padded to two digits. */
  function FormatDuration(seconds: int): string
  {
    IntToString(FloorDiv(seconds, 60)) + ":" + PadStart2(IntToString(JsRem(seconds, 60)))
  }

  /** Reads "m:ss" back as seconds: exactly two ':'-separated numbers. */
  function ParseDuration(text: string): Option<int>
  {
    var fields := Split(text, ':');
    if |fields| != 2 then None
    else
      var minutes := NumberOf(fields[0]);
      var seconds := NumberOf(fields[1]);
      if minutes.Some? && seconds.Some? then Some(minutes.value * 60 + seconds.value) else None
  }

  // ---------------------------------------------------------------------
  // Statistics

  function ByCallType(t: CallType): CallSession -> bool
  {
    (s: CallSession) => s.callType == t
  }

  function ByStatus(status: CallStatus): CallSession -> bool
  {
    (s: CallSession) => s.status == status
  }

  /** `acc + (s.duration || 0)` summed over the sessions. */
  function TotalDuration(sessions: seq<CallSession>): int
    decreases |sessions|
  {
    if |sessions| == 0 then 0 else sessions[0].duration.GetOr(0) + TotalDuration(sessions[1..])
  }

  /** Durations that all lie between 0 and `bound` sum to at most `bound` per session. */
  lemma {:induction false} TotalDurationBounds(sessions: seq<CallSession>, bound: int)
    requires forall i | 0 <= i < |sessions| :: 0 <= sessions[i].duration.GetOr(0) <= bound
    ensures 0 <= TotalDuration(sessions) <= bound * |sessions|
    decreases |sessions|
  {
    if |sessions| > 0 {
      TotalDurationBounds(sessions[1..], bound);
    }
  }

  /**
   * The stats `fetchCallSessions` computes from the listed sessions (None
   * when the response has no session list): counts of appointment calls and
   * of active calls, and the mean duration rounded to whole seconds.
   */
  function Stats(sessions: Option<seq<CallSession>>): (s: CallStats)
    ensures var list := sessions.GetOr([]);
            && s.totalCalls == |list|
            && s.appointmentsBooked == Seqs.Count(list, ByCallType(Appointment))
            && s.activeNow == Seqs.Count(list, ByStatus(Active))
    ensures s.appointmentsBooked <= s.totalCalls && s.activeNow <= s.totalCalls
    ensures s.totalCalls == 0 ==> s.averageCallDuration == 0
    ensures s.totalCalls > 0 ==> var sum := TotalDuration(sessions.value);
              2 * s.averageCallDuration * s.totalCalls <= 2 * sum + s.totalCalls < 2 * (s.averageCallDuration + 1) * s.totalCalls
  {
    var list := sessions.GetOr([]);
    var total := |list|;
    // `sum / 0` is NaN, and `NaN || 0` is 0.
    var average := if total > 0 then RoundDiv(TotalDuration(list), total) else 0;
    CallStats(total, Seqs.Count(list, ByCallType(Appointment)), average, Seqs.Count(list, ByStatus(Active)))
  }

  /** When every duration lies between 0 and `bound` seconds, so does the average. */
  lemma AverageWithinBounds(sessions: seq<CallSession>, bound: int)
    requires forall i | 0 <= i < |sessions| :: 0 <= sessions[i].duration.GetOr(0) <= bound
    ensures 0 <= Stats(Some(sessions)).averageCallDuration
    ensures |sessions| > 0 ==> Stats(Some(sessions)).averageCallDuration <= bound
  {
    TotalDurationBounds(sessions, bound);
    if |sessions| > 0 {
      RoundedMeanBounds(TotalDuration(sessions), |sessions|, Stats(Some(sessions)).averageCallDuration, bound);
    }
  }

  /** A rounded mean of values in 0..bound lies in 0..bound. */
  lemma RoundedMeanBounds(sum: int, n: int, r: int, bound: int)
    requires n > 0 && 0 <= sum <= bound * n
    requires 2 * r * n <= 2 * sum + n < 2 * (r + 1) * n
    ensures 0 <= r <= bound
  {
    assert (2 * bound + 2) * n == 2 * (bound * n) + 2 * n;
    assert 2 * r * n == (2 * r) * n;
    FactorLess(2 * r, 2 * bound + 2, n);
    assert 0 * n == 0;
    FactorLess(0, 2 * (r + 1), n);
  }

  /** The recent list: the first five sessions in the order received. */
  function RecentSessions(sessions: seq<CallSession>): (r: seq<CallSession>)
    ensures r <= sessions
    ensures |r| == if |sessions| < RecentLength then |sessions| else RecentLength
  {
    Seqs.Take(sessions, RecentLength)
  }
}

=== FILE: seqs.dfy ===
/**
 * The array operations the pages use on query results: `filter`, counting
 * with `filter(...).length`, `slice(0, n)`, `[...new Set(xs)]`, and the
 * orderings the database queries return.
 */
module Seqs {

  /** `idx` places the elements of `a`, in order, at increasing positions of `b`. */
  ghost predicate Embeds<T>(idx: seq<int>, a: seq<T>, b: seq<T>)
  {
    && |idx| == |a|
    && (forall i | 0 <= i < |idx| :: 0 <= idx[i] < |b| && b[idx[i]] == a[i])
    && (forall i, j | 0 <= i < j < |idx| :: idx[i] < idx[j])
  }

  /** `a` is an order-preserving subsequence of `b`. */
  ghost predicate IsSubsequence<T>(a: seq<T>, b: seq<T>)
  {
    exists idx :: Embeds(idx, a, b)
  }

  /** Being a subsequence is transitive: filtering a filtered list stays a subsequence of the original. */
  lemma SubsequenceTransitive<T>(a: seq<T>, b: seq<T>, c: seq<T>)
    requires IsSubsequence(a, b) && IsSubsequence(b, c)
    ensures IsSubsequence(a, c)
  {
    var ab :| Embeds(ab, a, b);
    var bc :| Embeds(bc, b, c);
    var ac := seq(|ab|, i requires 0 <= i < |ab| => bc[ab[i]]);
    assert Embeds(ac, a, c);
  }

  lemma SubsequenceReflexive<T>(a: seq<T>)
    ensures IsSubsequence(a, a)
  {
    var idx := seq(|a|, i => i);
    assert Embeds(idx, a, a);
  }

  /** Number of elements satisfying `p`: `xs.filter(p).length`. */
  function Count<T>(s: seq<T>, p: T -> bool): (n: nat)
    ensures n <= |s|
    decreases |s|
  {
    if |s| == 0 then 0 else (if p(s[0]) then 1 else 0) + Count(s[1..], p)
  }

  /** `xs.filter(p)`. */
  function Filter<T>(s: seq<T>, p: T -> bool): (r: seq<T>)
    ensures |r| == Count(s, p)
    ensures forall i | 0 <= i < |r| :: p(r[i])
    decreases |s|
  {
    if |s| == 0 then []
    else (if p(s[0]) then [s[0]] else []) + Filter(s[1..], p)
  }

  /** A filter keeps exactly the elements that satisfy its predicate. */
  lemma {:induction false} FilterMembership<T>(s: seq<T>, p: T -> bool, x: T)
    ensures x in Filter(s, p) <==> x in s && p(x)
    decreases |s|
  {
    if |s| > 0 {
      FilterMembership(s[1..], p, x);
      assert s == [s[0]] + s[1..];
    }
  }

  /** Shifting an embedding into `b[1..]` by one gives an embedding into `b`. */
  lemma EmbedsShift<T>(idx: seq<int>, a: seq<T>, b: seq<T>) returns (shifted: seq<int>)
    requires |b| > 0 && Embeds(idx, a, b[1..])
    ensures Embeds(shifted, a, b)
    ensures forall i | 0 <= i < |shifted| :: shifted[i] > 0
  {
    shifted := seq(|idx|, i requires 0 <= i < |idx| => idx[i] + 1);
  }

  /** Matching the head of `b` first extends an embedding that avoids position 0. */
  lemma EmbedsCons<T>(idx: seq<int>, a: seq<T>, b: seq<T>)
    requires |b| > 0 && Embeds(idx, a, b)
    requires forall i | 0 <= i < |idx| :: idx[i] > 0
    ensures Embeds([0] + idx, [b[0]] + a, b)
  {
  }

  /** The result of a filter is an order-preserving subsequence of its input. */
  lemma {:induction false} FilterIsSubsequence<T>(s: seq<T>, p: T -> bool)
    ensures IsSubsequence(Filter(s, p), s)
    decreases |s|
  {
    if |s| == 0 {
      assert Embeds([], Filter(s, p), s);
    } else {
      FilterIsSubsequence(s[1..], p);
      var rest := Filter(s[1..], p);
      var idx :| Embeds(idx, rest, s[1..]);
      var shifted := EmbedsShift(idx, rest, s);
      if p(s[0]) {
        assert Filter(s, p) == [s[0]] + rest;
        EmbedsCons(shifted, rest, s);
      } else {
        assert Filter(s, p) == rest;
      }
    }
  }

  /** Every element a filter keeps, and nothing else. */
  lemma FilterMembershipAll<T>(s: seq<T>, p: T -> bool)
    ensures forall x :: x in Filter(s, p) <==> x in s && p(x)
  {
    forall x
      ensures x in Filter(s, p) <==> x in s && p(x)
    {
      FilterMembership(s, p, x);
    }
  }

  /** Filtering with `q` first does not change the count of `p` when every `p` element passes `q`. */
  lemma {:induction false} CountFiltered<T>(s: seq<T>, p: T -> bool, q: T -> bool)
    requires forall i | 0 <= i < |s| :: p(s[i]) ==> q(s[i])
    ensures Count(Filter(s, q), p) == Count(s, p)
    decreases |s|
  {
    if |s| > 0 {
      CountFiltered(s[1..], p, q);
      var rest := Filter(s[1..], q);
      if q(s[0]) {
        var kept := [s[0]] + rest;
        assert Filter(s, q) == kept;
        assert kept[0] == s[0] && kept[1..] == rest;
        assert Count(kept, p) == (if p(s[0]) then 1 else 0) + Count(rest, p);
      } else {
        assert Filter(s, q) == rest;
      }
    }
  }

  /** A list none of whose elements satisfies `p` counts zero. */
  lemma {:induction false} CountNone<T>(s: seq<T>, p: T -> bool)
    requires forall i | 0 <= i < |s| :: !p(s[i])
    ensures Count(s, p) == 0
    decreases |s|
  {
    if |s| > 0 {
      CountNone(s[1..], p);
    }
  }

  /** A list all of whose elements satisfy `p` counts its length. */
  lemma {:induction false} CountAll<T>(s: seq<T>, p: T -> bool)
    requires forall i | 0 <= i < |s| :: p(s[i])
    ensures Count(s, p) == |s|
    decreases |s|
  {
    if |s| > 0 {
      CountAll(s[1..], p);
    }
  }

  /** The count of `r` splits into the counts of `p` and `q` when `r` is their disjoint union on `s`. */
  lemma {:induction false} CountUnion<T>(s: seq<T>, p: T -> bool, q: T -> bool, r: T -> bool)
    requires forall i | 0 <= i < |s| :: r(s[i]) == (p(s[i]) || q(s[i])) && !(p(s[i]) && q(s[i]))
    ensures Count(s, r) == Count(s, p) + Count(s, q)
    decreases |s|
  {
    if |s| > 0 {
      CountUnion(s[1..], p, q, r);
    }
  }

  /** `xs.slice(0, n)`: the first `n` elements, or all of them when there are fewer. */
  function Take<T>(s: seq<T>, n: nat): (r: seq<T>)
    ensures |r| == if |s| < n then |s| else n
    ensures r <= s
  {
    if |s| < n then s else s[..n]
  }

  /** `s` is ordered by `key`, smallest first. */
  ghost predicate Ascending<T>(s: seq<T>, key: T -> int)
  {
    forall i, j | 0 <= i < j < |s| :: key(s[i]) <= key(s[j])
  }

  /** `s` is ordered by `key`, largest first. */
  ghost predicate Descending<T>(s: seq<T>, key: T -> int)
  {
    forall i, j | 0 <= i < j < |s| :: key(s[i]) >= key(s[j])
  }

  /** A subsequence of an ordered list keeps its order. */
  lemma SubsequenceKeepsOrder<T>(a: seq<T>, b: seq<T>, key: T -> int)
    requires IsSubsequence(a, b)
    ensures Ascending(b, key) ==> Ascending(a, key)
    ensures Descending(b, key) ==> Descending(a, key)
  {
    var idx :| Embeds(idx, a, b);
    forall i, j | 0 <= i < j < |a|
      ensures Ascending(b, key) ==> key(a[i]) <= key(a[j])
      ensures Descending(b, key) ==> key(a[i]) >= key(a[j])
    {
      assert idx[i] < idx[j];
    }
  }

  /** No value occurs twice. */
  predicate Distinct<T(==)>(s: seq<T>)
  {
    forall i, j | 0 <= i < j < |s| :: s[i] != s[j]
  }

  /** Position of the first occurrence of `x` in `s`. */
  function FirstIndex<T(==)>(s: seq<T>, x: T): (k: nat)
    requires x in s
    ensures k < |s| && s[k] == x && x !in s[..k]
    decreases |s|
  {
    if s[0] == x then 0
    else
      var k := 1 + FirstIndex(s[1..], x);
      assert s[..k] == [s[0]] + s[1..][..k - 1];
      k
  }

  /** `[...new Set(s)]`: each value once, in the order of its first occurrence. */
  function Dedup<T(==)>(s: seq<T>): (r: seq<T>)
    ensures forall i | 0 <= i < |r| :: r[i] in s
    ensures forall i | 0 <= i < |s| :: s[i] in r
    ensures Distinct(r)
    ensures forall i, j | 0 <= i < j < |r| :: FirstIndex(s, r[i]) < FirstIndex(s, r[j])
    decreases |s|
  {
    if |s| == 0 then []
    else
      var init := s[..|s| - 1];
      var last := s[|s| - 1];
      var d := Dedup(init);
      assert s == init + [last];
      if last in d then
        DedupSeen(init, last, d);
        d
      else
        DedupUnseen(init, last, d);
        d + [last]
  }

  /** One step of Dedup when the new element was seen before: the list stays as it is. */
  lemma DedupSeen<T>(init: seq<T>, last: T, d: seq<T>)
    requires forall i | 0 <= i < |d| :: d[i] in init
    requires forall i | 0 <= i < |init| :: init[i] in d
    requires forall i, j | 0 <= i < j < |d| :: FirstIndex(init, d[i]) < FirstIndex(init, d[j])
    requires last in d
    ensures forall i | 0 <= i < |d| :: d[i] in init + [last]
    ensures forall i | 0 <= i < |init + [last]| :: (init + [last])[i] in d
    ensures forall i, j | 0 <= i < j < |d| :: FirstIndex(init + [last], d[i]) < FirstIndex(init + [last], d[j])
  {
    var s := init + [last];
    FirstIndexOfPrefix(init, last, d);
    forall i | 0 <= i < |s| ensures s[i] in d {
      if i < |init| {
        assert s[i] == init[i];
      }
    }
  }

  /** One step of Dedup when the new element is new: it goes at the end. */
  lemma DedupUnseen<T>(init: seq<T>, last: T, d: seq<T>)
    requires forall i | 0 <= i < |d| :: d[i] in init
    requires forall i | 0 <= i < |init| :: init[i] in d
    requires Distinct(d)
    requires forall i, j | 0 <= i < j < |d| :: FirstIndex(init, d[i]) < FirstIndex(init, d[j])
    requires last !in d
    ensures var r := d + [last];
      && (forall i | 0 <= i < |r| :: r[i] in init + [last])
      && (forall i | 0 <= i < |init + [last]| :: (init + [last])[i] in r)
      && Distinct(r)
      && (forall i, j | 0 <= i < j < |r| :: FirstIndex(init + [last], r[i]) < FirstIndex(init + [last], r[j]))
  {
    var s := init + [last];
    var r := d + [last];
    assert last !in init;
    FirstIndexOfPrefix(init, last, d);
    forall i | 0 <= i < |r| ensures r[i] in s {
      if i < |d| {
        assert r[i] == d[i];
      }
    }
    forall i | 0 <= i < |s| ensures s[i] in r {
      if i < |init| {
        assert s[i] == init[i];
      }
    }
    forall i, j | 0 <= i < j < |r|
      ensures FirstIndex(s, r[i]) < FirstIndex(s, r[j])
    {
      assert r[i] == d[i];
      if j < |d| {
        assert r[j] == d[j];
      }
    }
  }

  /** Extending `init` by one element moves no first occurrence. */
  lemma FirstIndexOfPrefix<T>(init: seq<T>, last: T, d: seq<T>)
    requires forall i | 0 <= i < |d| :: d[i] in init
    ensures forall x | x in d :: FirstIndex(init + [last], x) == FirstIndex(init, x)
    ensures last !in init ==> FirstIndex(init + [last], last) == |init|
  {
    var s := init + [last];
    forall x | x in d
      ensures FirstIndex(s, x) == FirstIndex(init, x)
    {
      assert x in init by {
        var i :| 0 <= i < |d| && d[i] == x;
      }
      var k := FirstIndex(init, x);
      var m := FirstIndex(s, x);
      assert s[k] == init[k];
      forall j | 0 <= j < k ensures s[j] != x {
        assert init[..k][j] == s[j];
      }
      forall j | 0 <= j < m ensures s[j] != x {
        assert s[..m][j] == s[j];
      }
    }
  }
}

=== FILE: student_dashboard.dfy ===
/**
 * The student dashboard: the attendance percentage, the event counts over
 * the five most recent events, and the upcoming lectures with their
 * display defaults.
 */
module StudentDashboard {
  import opened Options
  import opened Arith
  import opened Campus
  import Seqs

  datatype DashboardStats = DashboardStats(totalLectures: nat, attendancePercentage: int, upcomingEvents: nat, completedEvents: nat)

  /** The columns of an event the dashboard selects. */
  datatype EventSummary = EventSummary(id: string, title: string, eventDate: int, venue: string, status: string)

  /** A lecture as the dashboard lists it. */
  datatype UpcomingLecture = UpcomingLecture(id: string, title: string, subject: string, scheduledAt: int, roomNumber: string, facultyName: string)

  /** The `.limit(5)` of both queries. */
  const QueryLimit := 5

  function ByEventStatus(status: string): EventSummary -> bool
  {
    (e: EventSummary) => e.status == status
  }

  /**
   * The stats from the student's attendance marks and the college's events,
   * latest first; the events query keeps only the first five.
   */
  function Stats(marks: seq<AttendanceStatus>, events: seq<EventSummary>): (s: DashboardStats)
    ensures s.totalLectures == |marks|
    ensures 0 <= s.attendancePercentage <= 100
    ensures |marks| == 0 ==> s.attendancePercentage == 0
    ensures |marks| > 0 ==> var present := Seqs.Count(marks, (m: AttendanceStatus) => m == Present);
              2 * s.attendancePercentage * |marks| <= 200 * present + |marks| < 2 * (s.attendancePercentage + 1) * |marks|
    ensures s.upcomingEvents == Seqs.Count(Seqs.Take(events, QueryLimit), ByEventStatus("upcoming"))
    ensures s.completedEvents == Seqs.Count(Seqs.Take(events, QueryLimit), ByEventStatus("completed"))
    ensures s.upcomingEvents <= QueryLimit && s.completedEvents <= QueryLimit
    ensures s.upcomingEvents + s.completedEvents <= |events| && s.upcomingEvents + s.completedEvents <= QueryLimit
  {
    var present := Seqs.Count(marks, (m: AttendanceStatus) => m == Present);
    var fetched := Seqs.Take(events, QueryLimit);
    var upcoming := Seqs.Count(fetched, ByEventStatus("upcoming"));
    var completed := Seqs.Count(fetched, ByEventStatus("completed"));
    DisjointCounts(fetched, "upcoming", "completed");
    DashboardStats(|marks|, Percent(present, |marks|), upcoming, completed)
  }

  /** Only the five events the query keeps are counted: events after them change nothing. */
  lemma LaterEventsIgnored(marks: seq<AttendanceStatus>, events: seq<EventSummary>, later: seq<EventSummary>)
    requires |events| >= QueryLimit
    ensures Stats(marks, events + later) == Stats(marks, events)
  {
    assert (events + later)[..QueryLimit] == events[..QueryLimit];
  }

  /**
   * With at most five events, each upcoming or completed, the two counts
   * together account for every event.
   */
  lemma EventCountsComplete(marks: seq<AttendanceStatus>, events: seq<EventSummary>)
    requires |events| <= QueryLimit
    requires forall i | 0 <= i < |events| :: events[i].status == "upcoming" || events[i].status == "completed"
    ensures Stats(marks, events).upcomingEvents + Stats(marks, events).completedEvents == |events|
  {
    var known := (e: EventSummary) => e.status == "upcoming" || e.status == "completed";
    assert Seqs.Take(events, QueryLimit) == events;
    Seqs.CountAll(events, known);
    Seqs.CountUnion(events, ByEventStatus("upcoming"), ByEventStatus("completed"), known);
  }

  /** Events of two different statuses are counted apart, so the two counts fit in the list together. */
  lemma {:induction false} DisjointCounts(events: seq<EventSummary>, a: string, b: string)
    requires a != b
    ensures Seqs.Count(events, ByEventStatus(a)) + Seqs.Count(events, ByEventStatus(b)) <= |events|
    decreases |events|
  {
    if |events| > 0 {
      DisjointCounts(events[1..], a, b);
    }
  }

  /** `x || fallback` on an optional string. */
  function OrDefault(value: Option<string>, fallback: string): (r: string)
    ensures value.Some? && value.value != "" ==> r == value.value
    ensures value.None? || value.value == "" ==> r == fallback
    ensures fallback != "" ==> r != ""
  {
    if value.Some? && value.value != "" then value.value else fallback
  }

  /** The row shown for a lecture: a missing room reads "TBA" and a missing faculty "Unknown". */
  function Upcoming(l: Lecture): (u: UpcomingLecture)
    ensures u.id == l.id && u.title == l.title && u.subject == l.subject && u.scheduledAt == l.scheduledAt
    ensures u.roomNumber == OrDefault(l.roomNumber, "TBA")
    ensures u.facultyName == OrDefault(l.facultyName, "Unknown")
  {
    UpcomingLecture(l.id, l.title, l.subject, l.scheduledAt, OrDefault(l.roomNumber, "TBA"), OrDefault(l.facultyName, "Unknown"))
  }

  function NotBefore(now: int): Lecture -> bool
  {
    (l: Lecture) => l.scheduledAt >= now
  }

  /**
   * The lectures query: `lectures` is the college's lectures soonest first;
   * those at or after `now` are kept, at most five.
   */
  function KeptLectures(lectures: seq<Lecture>, now: int): (k: seq<Lecture>)
    ensures |k| <= QueryLimit
    ensures forall i | 0 <= i < |k| :: k[i] in lectures && k[i].scheduledAt >= now
  {
    var filtered := Seqs.Filter(lectures, NotBefore(now));
    var k := Seqs.Take(filtered, QueryLimit);
    forall i | 0 <= i < |k|
      ensures k[i] in lectures
    {
      assert k[i] == filtered[i];
      Seqs.FilterMembership(lectures, NotBefore(now), k[i]);
    }
    k
  }

  /** When at most five lectures are due, the query keeps every one of them. */
  lemma KeptLecturesComplete(lectures: seq<Lecture>, now: int, l: Lecture)
    requires Seqs.Count(lectures, NotBefore(now)) <= QueryLimit
    ensures l in KeptLectures(lectures, now) <==> l in lectures && l.scheduledAt >= now
  {
    Seqs.FilterMembership(lectures, NotBefore(now), l);
  }

  /** The rows the dashboard lists, one per kept lecture. */
  function UpcomingLectures(lectures: seq<Lecture>, now: int): (r: seq<UpcomingLecture>)
    ensures |r| == |KeptLectures(lectures, now)|
    ensures forall i | 0 <= i < |r| :: r[i] == Upcoming(KeptLectures(lectures, now)[i])
  {
    var kept := KeptLectures(lectures, now);
    seq(|kept|, i requires 0 <= i < |kept| => Upcoming(kept[i]))
  }

  /** No upcoming-lecture row shows a blank room or a blank faculty name. */
  lemma UpcomingNeverBlank(lectures: seq<Lecture>, now: int)
    ensures forall u | u in UpcomingLectures(lectures, now) :: u.roomNumber != "" && u.facultyName != ""
  {
  }

  /** `u.scheduledAt`, the ordering of the listed rows. */
  function ListedAt(u: UpcomingLecture): int
  {
    u.scheduledAt
  }

  /** Soonest-first input gives a soonest-first list. */
  lemma UpcomingLecturesOrdered(lectures: seq<Lecture>, now: int)
    requires Seqs.Ascending(lectures, ScheduledAt)
    ensures Seqs.Ascending(UpcomingLectures(lectures, now), ListedAt)
  {
    var filtered := Seqs.Filter(lectures, NotBefore(now));
    var kept := KeptLectures(lectures, now);
    var r := UpcomingLectures(lectures, now);
    Seqs.FilterIsSubsequence(lectures, NotBefore(now));
    Seqs.SubsequenceKeepsOrder(filtered, lectures, ScheduledAt);
    forall i, j | 0 <= i < j < |r|
      ensures ListedAt(r[i]) <= ListedAt(r[j])
    {
      assert kept[i] == filtered[i] && kept[j] == filtered[j];
      assert ScheduledAt(filtered[i]) <= ScheduledAt(filtered[j]);
    }
  }
}

=== FILE: student_events.dfy ===
/**
 * The student events page: the search and status filters, whether an event
 * takes registrations, whether it is full, and the registration status and
 * participant count attached to each fetched event.
 */
module StudentEvents {
  import opened Options
  import opened Text
  import Seqs

  datatype RegistrationStatus = Registered | NotRegistered

  /**
   * A row of the events table; timestamps are integers, and the two
   * derived fields are absent until `WithRegistration` fills them in.
   */
  datatype Event = Event(
    id: string,
    title: string,
    description: string,
    eventDate: int,
    startTime: string,
    endTime: string,
    venue: string,
    maxParticipants: Option<int>,
    registrationRequired: bool,
    registrationDeadline: Option<int>,
    imageUrl: Option<string>,
    status: string,
    createdBy: string,
    registrationStatus: Option<RegistrationStatus>,
    participantsCount: Option<int>)

  datatype RowStatus = RowRegistered | RowAttended | RowCancelled

  /** A row of the event_registrations table. */
  datatype Registration = Registration(id: string, eventId: string, studentId: string, status: RowStatus)

  // ---------------------------------------------------------------------
  // Filters

  /** The search term hits the title, the description or the venue, ignoring case. */
  predicate SearchHit(e: Event, term: string)
  {
    var needle := ToLower(term);
    Includes(ToLower(e.title), needle) || Includes(ToLower(e.description), needle) || Includes(ToLower(e.venue), needle)
  }

  function BySearch(term: string): Event -> bool
  {
    (e: Event) => SearchHit(e, term)
  }

  function ByStatus(status: string): Event -> bool
  {
    (e: Event) => e.status == status
  }

  /** The event passes both filters of the page. */
  predicate Shown(e: Event, searchTerm: string, filterStatus: string)
  {
    && (searchTerm != "" ==> SearchHit(e, searchTerm))
    && (filterStatus != "all" ==> e.status == filterStatus)
  }

  /** `filterEvents`: the search filter when a term is typed, then the status filter unless "all". */
  function FilterEvents(events: seq<Event>, searchTerm: string, filterStatus: string): (r: seq<Event>)
    ensures |r| <= |events|
  {
    var searched := if searchTerm != "" then Seqs.Filter(events, BySearch(searchTerm)) else events;
    if filterStatus != "all" then Seqs.Filter(searched, ByStatus(filterStatus)) else searched
  }

  /** An event is shown exactly when it was fetched and passes both filters. */
  lemma FilterEventsMembership(events: seq<Event>, searchTerm: string, filterStatus: string, e: Event)
    ensures e in FilterEvents(events, searchTerm, filterStatus) <==> e in events && Shown(e, searchTerm, filterStatus)
  {
    var searched := if searchTerm != "" then Seqs.Filter(events, BySearch(searchTerm)) else events;
    if searchTerm != "" {
      Seqs.FilterMembership(events, BySearch(searchTerm), e);
    }
    if filterStatus != "all" {
      Seqs.FilterMembership(searched, ByStatus(filterStatus), e);
    }
  }

  /** The shown events keep the fetched order (by event date), and no filter at all shows every event. */
  lemma FilterEventsSubsequence(events: seq<Event>, searchTerm: string, filterStatus: string)
    ensures Seqs.IsSubsequence(FilterEvents(events, searchTerm, filterStatus), events)
    ensures searchTerm == "" && filterStatus == "all" ==> FilterEvents(events, searchTerm, filterStatus) == events
  {
    var searched := if searchTerm != "" then Seqs.Filter(events, BySearch(searchTerm)) else events;
    if searchTerm != "" {
      Seqs.FilterIsSubsequence(events, BySearch(searchTerm));
    } else {
      Seqs.SubsequenceReflexive(events);
    }
    if filterStatus != "all" {
      Seqs.FilterIsSubsequence(searched, ByStatus(filterStatus));
      Seqs.SubsequenceTransitive(Seqs.Filter(searched, ByStatus(filterStatus)), searched, events);
    }
  }

  /** Only the title, description and venue are searched: changing any other field does not change the verdict. */
  lemma SearchIgnoresOtherFields(e: Event, term: string, id: string, status: string, createdBy: string, startTime: string)
    ensures SearchHit(e.(id := id, status := status, createdBy := createdBy, startTime := startTime), term) == SearchHit(e, term)
  {
  }

  /**
   * A search is case-insensitive: a title and a term that differ from the
   * original ones only in letter case give the same verdict.
   */
  lemma SearchCaseInsensitive(e: Event, term: string, title: string, otherTerm: string)
    requires ToLower(title) == ToLower(e.title) && ToLower(otherTerm) == ToLower(term)
    ensures SearchHit(e.(title := title), otherTerm) == SearchHit(e, term)
  {
  }

  /** A search is case-insensitive: the upper-case title "MUSIC NIGHT" is found by "music". */
  lemma SearchIgnoresCase(e: Event)
    requires e.title == "MUSIC NIGHT"
    ensures SearchHit(e, "music")
  {
    assert ToLower("MUSIC NIGHT")[0..5] == "music";
    assert OccursAt(ToLower(e.title), ToLower("music"), 0);
  }

  // ---------------------------------------------------------------------
  // Registration window and capacity

  /**
   * `isRegistrationOpen` at time `now`: only upcoming events that require
   * registration; before the deadline when one is set, otherwise before the
   * event date.
   */
  predicate IsRegistrationOpen(e: Event, now: int)
  {
    if !e.registrationRequired then false
    else if e.status != "upcoming" then false
    else if e.registrationDeadline.Some? then e.registrationDeadline.value > now
    else e.eventDate > now
  }

  /** The two guards and the two date rules of `isRegistrationOpen`. */
  lemma RegistrationOpenCases(e: Event, now: int)
    ensures !e.registrationRequired || e.status != "upcoming" ==> !IsRegistrationOpen(e, now)
    ensures e.registrationRequired && e.status == "upcoming" && e.registrationDeadline.Some? ==>
              (IsRegistrationOpen(e, now) <==> e.registrationDeadline.value > now)
    ensures e.registrationRequired && e.status == "upcoming" && e.registrationDeadline.None? ==>
              (IsRegistrationOpen(e, now) <==> e.eventDate > now)
    ensures e.registrationDeadline.Some? ==>
              forall date :: IsRegistrationOpen(e.(eventDate := date), now) == IsRegistrationOpen(e, now)
  {
  }

  /** `isEventFull`: a set, non-zero maximum that the participant count has reached. */
  predicate IsEventFull(e: Event)
  {
    && e.maxParticipants.Some? && e.maxParticipants.value != 0
    && e.participantsCount.Some? && e.participantsCount.value >= e.maxParticipants.value
  }

  /** An event without a maximum, or with a maximum of 0, is never full. */
  lemma UnlimitedEventNeverFull(e: Event, count: int)
    requires e.maxParticipants.None? || e.maxParticipants == Some(0)
    ensures !IsEventFull(e.(participantsCount := Some(count)))
  {
  }

  /** With a set, non-zero maximum, the event is full exactly when the participant count has reached it. */
  lemma LimitedEventFull(e: Event, count: int)
    requires e.maxParticipants.Some? && e.maxParticipants.value != 0
    ensures IsEventFull(e.(participantsCount := Some(count))) <==> count >= e.maxParticipants.value
    ensures !IsEventFull(e.(participantsCount := None))
  {
  }

  // ---------------------------------------------------------------------
  // Registration status and participant count

  /** The rows for this event and this student. */
  function ByStudent(eventId: string, studentId: string): Registration -> bool
  {
    (r: Registration) => r.eventId == eventId && r.studentId == studentId
  }

  /** The rows for this event whose status is "registered". */
  function ByParticipant(eventId: string): Registration -> bool
  {
    (r: Registration) => r.eventId == eventId && r.status == RowRegistered
  }

  /**
   * The event as `fetchEvents` enriches it: `.single()` yields a row only
   * when exactly one row matches the event and the student, whatever that
   * row's status; the participant count is the number of "registered" rows.
   */
  function WithRegistration(e: Event, rows: seq<Registration>, studentId: string): (r: Event)
    ensures r.registrationStatus == Some(Registered) <==> Seqs.Count(rows, ByStudent(e.id, studentId)) == 1
    ensures r.registrationStatus.Some?
    ensures r.participantsCount == Some(Seqs.Count(rows, ByParticipant(e.id)))
    ensures r.(registrationStatus := e.registrationStatus, participantsCount := e.participantsCount) == e
  {
    var own := Seqs.Filter(rows, ByStudent(e.id, studentId));
    var participants := Seqs.Filter(rows, ByParticipant(e.id));
    e.(registrationStatus := if |own| == 1 then Some(Registered) else Some(NotRegistered),
       participantsCount := Some(|participants|))
  }

  /** `handleRegistration('register')`: one "registered" row is appended; the existing rows stay as they were. */
  function Register(rows: seq<Registration>, rowId: string, eventId: string, studentId: string): (r: seq<Registration>)
    ensures |r| == |rows| + 1
    ensures rows <= r
    ensures r[|rows|] == Registration(rowId, eventId, studentId, RowRegistered)
  {
    rows + [Registration(rowId, eventId, studentId, RowRegistered)]
  }

  /** The rows that do not belong to this event and this student. */
  function ByOthers(eventId: string, studentId: string): Registration -> bool
  {
    (r: Registration) => !ByStudent(eventId, studentId)(r)
  }

  /**
   * `handleRegistration('unregister')`: every row of this event and student
   * is deleted, and every other row is kept.
   */
  function Unregister(rows: seq<Registration>, eventId: string, studentId: string): (r: seq<Registration>)
    ensures |r| <= |rows|
    ensures forall x :: x in r <==> x in rows && !(x.eventId == eventId && x.studentId == studentId)
  {
    Seqs.FilterMembershipAll(rows, ByOthers(eventId, studentId));
    OthersKept(eventId, studentId);
    Seqs.Filter(rows, ByOthers(eventId, studentId))
  }

  lemma OthersKept(eventId: string, studentId: string)
    ensures forall x :: ByOthers(eventId, studentId)(x) <==> !(x.eventId == eventId && x.studentId == studentId)
  {
    forall x
      ensures ByOthers(eventId, studentId)(x) <==> !(x.eventId == eventId && x.studentId == studentId)
    {
      assert ByStudent(eventId, studentId)(x) == (x.eventId == eventId && x.studentId == studentId);
    }
  }

  /**
   * Unregistering touches only the one student's rows for the one event:
   * every other event reads exactly as before, and every other student of
   * the same event keeps their registration status.
   */
  lemma UnregisterKeepsOthers(e: Event, rows: seq<Registration>, eventId: string, studentId: string, other: string)
    ensures e.id != eventId ==>
              WithRegistration(e, Unregister(rows, eventId, studentId), other) == WithRegistration(e, rows, other)
    ensures e.id != eventId || other != studentId ==>
              (WithRegistration(e, Unregister(rows, eventId, studentId), other).registrationStatus
               == WithRegistration(e, rows, other).registrationStatus)
  {
    var keep := ByOthers(eventId, studentId);
    OthersKept(eventId, studentId);
    if e.id != eventId || other != studentId {
      forall i | 0 <= i < |rows|
        ensures ByStudent(e.id, other)(rows[i]) ==> keep(rows[i])
      {
      }
      Seqs.CountFiltered(rows, ByStudent(e.id, other), keep);
    }
    if e.id != eventId {
      forall i | 0 <= i < |rows|
        ensures ByParticipant(e.id)(rows[i]) ==> keep(rows[i])
      {
      }
      Seqs.CountFiltered(rows, ByParticipant(e.id), keep);
    }
  }

  /** The count of a one-element extension. */
  lemma {:induction false} CountAppend(rows: seq<Registration>, row: Registration, p: Registration -> bool)
    ensures Seqs.Count(rows + [row], p) == Seqs.Count(rows, p) + (if p(row) then 1 else 0)
    decreases |rows|
  {
    if |rows| > 0 {
      assert (rows + [row])[1..] == rows[1..] + [row];
      CountAppend(rows[1..], row, p);
    }
  }

  /**
   * Registering a student who had no row for the event shows them as
   * registered and adds one participant.
   */
  lemma RegisterThenListed(e: Event, rows: seq<Registration>, rowId: string, studentId: string)
    requires Seqs.Count(rows, ByStudent(e.id, studentId)) == 0
    ensures var after := WithRegistration(e, Register(rows, rowId, e.id, studentId), studentId);
            && after.registrationStatus == Some(Registered)
            && after.participantsCount.value == WithRegistration(e, rows, studentId).participantsCount.value + 1
  {
    var row := Registration(rowId, e.id, studentId, RowRegistered);
    CountAppend(rows, row, ByStudent(e.id, studentId));
    CountAppend(rows, row, ByParticipant(e.id));
  }

  /** Registering twice leaves two rows, and `.single()` then finds none: the student shows as not registered. */
  lemma RegisterTwiceNotListed(e: Event, rows: seq<Registration>, id1: string, id2: string, studentId: string)
    requires Seqs.Count(rows, ByStudent(e.id, studentId)) == 0
    ensures WithRegistration(e, Register(Register(rows, id1, e.id, studentId), id2, e.id, studentId), studentId).registrationStatus
         == Some(NotRegistered)
  {
    var once := Register(rows, id1, e.id, studentId);
    CountAppend(rows, Registration(id1, e.id, studentId, RowRegistered), ByStudent(e.id, studentId));
    CountAppend(once, Registration(id2, e.id, studentId, RowRegistered), ByStudent(e.id, studentId));
  }

  /** After unregistering, the student has no row for the event and shows as not registered. */
  lemma UnregisterThenNotListed(e: Event, rows: seq<Registration>, studentId: string)
    ensures Seqs.Count(Unregister(rows, e.id, studentId), ByStudent(e.id, studentId)) == 0
    ensures WithRegistration(e, Unregister(rows, e.id, studentId), studentId).registrationStatus == Some(NotRegistered)
  {
    var after := Unregister(rows, e.id, studentId);
    Seqs.CountNone(after, ByStudent(e.id, studentId));
  }

}

=== FILE: student_lectures.dfy ===
/**
 * The student lectures page: the search, status and subject filters, the
 * subject list offered by the subject filter, and the upcoming badge.
 */
module StudentLectures {
  import opened Options
  import opened Text
  import opened Campus
  import Seqs

  /**
   * The search term hits the title, the subject or the faculty name,
   * ignoring case. A lecture without a faculty record never matches on the
   * faculty name.
   */
  predicate SearchHit(l: Lecture, term: string)
  {
    var needle := ToLower(term);
    || Includes(ToLower(l.title), needle)
    || Includes(ToLower(l.subject), needle)
    || (l.facultyName.Some? && Includes(ToLower(l.facultyName.value), needle))
  }

  function BySearch(term: string): Lecture -> bool
  {
    (l: Lecture) => SearchHit(l, term)
  }

  function ByStatus(status: string): Lecture -> bool
  {
    (l: Lecture) => l.status == status
  }

  function BySubject(subject: string): Lecture -> bool
  {
    (l: Lecture) => l.subject == subject
  }

  /** The lecture passes all three filters. */
  predicate Shown(l: Lecture, searchTerm: string, filterStatus: string, filterSubject: string)
  {
    && (searchTerm != "" ==> SearchHit(l, searchTerm))
    && (filterStatus != "all" ==> l.status == filterStatus)
    && (filterSubject != "all" ==> l.subject == filterSubject)
  }

  /** `filterLectures`: search, then status, then subject, each skipped when unset. */
  function FilterLectures(lectures: seq<Lecture>, searchTerm: string, filterStatus: string, filterSubject: string): (r: seq<Lecture>)
    ensures |r| <= |lectures|
  {
    var searched := if searchTerm != "" then Seqs.Filter(lectures, BySearch(searchTerm)) else lectures;
    var byStatus := if filterStatus != "all" then Seqs.Filter(searched, ByStatus(filterStatus)) else searched;
    if filterSubject != "all" then Seqs.Filter(byStatus, BySubject(filterSubject)) else byStatus
  }

  /** The filters compose as a conjunction. */
  lemma FilterLecturesMembership(lectures: seq<Lecture>, searchTerm: string, filterStatus: string, filterSubject: string, l: Lecture)
    ensures l in FilterLectures(lectures, searchTerm, filterStatus, filterSubject)
        <==> l in lectures && Shown(l, searchTerm, filterStatus, filterSubject)
  {
    var searched := if searchTerm != "" then Seqs.Filter(lectures, BySearch(searchTerm)) else lectures;
    var byStatus := if filterStatus != "all" then Seqs.Filter(searched, ByStatus(filterStatus)) else searched;
    if searchTerm != "" {
      Seqs.FilterMembership(lectures, BySearch(searchTerm), l);
    }
    if filterStatus != "all" {
      Seqs.FilterMembership(searched, ByStatus(filterStatus), l);
    }
    if filterSubject != "all" {
      Seqs.FilterMembership(byStatus, BySubject(filterSubject), l);
    }
  }

  /** The shown lectures keep the fetched order, so a list sorted latest first stays sorted. */
  lemma FilterLecturesSubsequence(lectures: seq<Lecture>, searchTerm: string, filterStatus: string, filterSubject: string)
    ensures Seqs.IsSubsequence(FilterLectures(lectures, searchTerm, filterStatus, filterSubject), lectures)
    ensures Seqs.Descending(lectures, ScheduledAt) ==>
              Seqs.Descending(FilterLectures(lectures, searchTerm, filterStatus, filterSubject), ScheduledAt)
  {
    var searched := if searchTerm != "" then Seqs.Filter(lectures, BySearch(searchTerm)) else lectures;
    var byStatus := if filterStatus != "all" then Seqs.Filter(searched, ByStatus(filterStatus)) else searched;
    var r := FilterLectures(lectures, searchTerm, filterStatus, filterSubject);
    if searchTerm != "" {
      Seqs.FilterIsSubsequence(lectures, BySearch(searchTerm));
    } else {
      Seqs.SubsequenceReflexive(lectures);
    }
    if filterStatus != "all" {
      Seqs.FilterIsSubsequence(searched, ByStatus(filterStatus));
      Seqs.SubsequenceTransitive(byStatus, searched, lectures);
    }
    if filterSubject != "all" {
      Seqs.FilterIsSubsequence(byStatus, BySubject(filterSubject));
      Seqs.SubsequenceTransitive(r, byStatus, lectures);
    }
    Seqs.SubsequenceKeepsOrder(r, lectures, ScheduledAt);
  }

  /** The description is not searched: a lecture found only through its description is not shown. */
  lemma DescriptionNotSearched(l: Lecture, term: string)
    ensures SearchHit(l.(description := Some(term)), term) == SearchHit(l, term)
  {
  }

  function Subjects(lectures: seq<Lecture>): (r: seq<string>)
    ensures |r| == |lectures|
    ensures forall i | 0 <= i < |lectures| :: r[i] == lectures[i].subject
  {
    seq(|lectures|, i requires 0 <= i < |lectures| => lectures[i].subject)
  }

  /**
   * `[...new Set(lectures.map(l => l.subject))]`: every subject once, in the
   * order it first occurs.
   */
  function UniqueSubjects(lectures: seq<Lecture>): (r: seq<string>)
    ensures Seqs.Distinct(r)
    ensures forall i | 0 <= i < |lectures| :: lectures[i].subject in r
    ensures forall j | 0 <= j < |r| :: exists i | 0 <= i < |lectures| :: lectures[i].subject == r[j]
    ensures forall j, k | 0 <= j < k < |r| ::
              Seqs.FirstIndex(Subjects(lectures), r[j]) < Seqs.FirstIndex(Subjects(lectures), r[k])
  {
    var subjects := Subjects(lectures);
    var r := Seqs.Dedup(subjects);
    forall j | 0 <= j < |r|
      ensures exists i | 0 <= i < |lectures| :: lectures[i].subject == r[j]
    {
      var i := Seqs.FirstIndex(subjects, r[j]);
      assert lectures[i].subject == r[j];
    }
    assert forall i | 0 <= i < |lectures| :: subjects[i] == lectures[i].subject;
    r
  }

  /** `isUpcoming`: scheduled strictly after `now`. */
  predicate IsUpcoming(scheduledAt: int, now: int)
  {
    scheduledAt > now
  }
}

=== FILE: text.dfy ===
/**
 * The JavaScript string operations the modelled code relies on, restricted to
 * what it actually does with them: decimal rendering of integers, `parseInt`,
 * `Number` on strings, `split` on one character, `padStart(2, '0')`,
 * `includes`, ASCII `toLowerCase` and `replace` of the first occurrence of a
 * one-character pattern.
 */
module Text {
  import opened Options

  predicate IsDigit(c: char) { '0' <= c <= '9' }

  predicate AllDigits(s: string) { forall i | 0 <= i < |s| :: IsDigit(s[i]) }

  function DigitChar(d: nat): (c: char)
    requires d < 10
    ensures IsDigit(c)
  {
    (('0' as int) + d) as char
  }

  function DigitValue(c: char): (d: nat)
    requires IsDigit(c)
    ensures d < 10 && DigitChar(d) == c
  {
    c as int - '0' as int
  }

  /** Decimal text of a natural number, without leading zeros. */
  function NatToString(n: nat): (s: string)
    ensures 1 <= |s| && AllDigits(s)
    ensures (|s| == 1) == (n < 10)
    ensures s[0] == '0' ==> n == 0
    decreases n
  {
    if n < 10 then [DigitChar(n)] else NatToString(n / 10) + [DigitChar(n % 10)]
  }

  /** `Number.prototype.toString()` of an integer (below 10^21, where no exponent appears). */
  function IntToString(i: int): string
  {
    if i < 0 then "-" + NatToString(-i) else NatToString(i)
  }

  /** JavaScript renders a missing numeric value (NaN) as "NaN". */
  function NumberToString(n: Option<int>): string
  {
    match n
    case Some(i) => IntToString(i)
    case None => "NaN"
  }

  /** Value of a string of decimal digits, most significant first; "" is 0. */
  function DigitsValue(s: string): nat
    requires AllDigits(s)
    decreases |s|
  {
    if |s| == 0 then 0 else DigitsValue(s[..|s| - 1]) * 10 + DigitValue(s[|s| - 1])
  }

  lemma {:induction false} DigitsValueOfNatToString(n: nat)
    ensures DigitsValue(NatToString(n)) == n
    decreases n
  {
    var s := NatToString(n);
    if n >= 10 {
      DigitsValueOfNatToString(n / 10);
      assert s[..|s| - 1] == NatToString(n / 10);
    }
  }

  /** A leading zero does not change the value of a digit string. */
  lemma {:induction false} DigitsValueLeadingZero(s: string)
    requires AllDigits(s)
    ensures AllDigits("0" + s) && DigitsValue("0" + s) == DigitsValue(s)
    decreases |s|
  {
    var t := "0" + s;
    if |s| > 0 {
      assert t[..|t| - 1] == "0" + s[..|s| - 1];
      DigitsValueLeadingZero(s[..|s| - 1]);
    }
  }

  /** Decimal rendering is injective: two numbers with the same text are equal. */
  lemma NatToStringInjective(a: nat, b: nat)
    requires NatToString(a) == NatToString(b)
    ensures a == b
  {
    DigitsValueOfNatToString(a);
    DigitsValueOfNatToString(b);
  }

  /**
   * The characters JavaScript trims: the white space of ECMAScript (tab,
   * vertical tab, form feed, space, no-break space, the byte order mark and
   * the Unicode space separators) and its line terminators.
   */
  predicate IsSpace(c: char)
  {
    if c <= ' ' then c == ' ' || '\t' <= c <= '\r'
    else '\U{00A0}' <= c && IsWideSpace(c)
  }

  /** The white space and line terminators beyond ASCII. */
  predicate IsWideSpace(c: char)
  {
    || c == '\U{00A0}' || c == '\U{1680}' || ('\U{2000}' <= c <= '\U{200A}') || c == '\U{2028}' || c == '\U{2029}'
    || c == '\U{202F}' || c == '\U{205F}' || c == '\U{3000}' || c == '\U{FEFF}'
  }

  /** A no-break space is trimmed like any other white space before a number. */
  lemma NoBreakSpaceTrimmed()
    ensures NumberOf("\U{00A0}30") == Some(30)
    ensures ParseInt("\U{00A0}9") == Some(9)
  {
    assert TrimStart("\U{00A0}30") == TrimStart("30") == "30";
    assert AllDigits("30") && DigitsValue("30") == 30;
    NumberOfDigits("30");
    assert TrimStart("\U{00A0}9") == TrimStart("9") == "9";
    assert AllDigits("9") && DigitsValue("9") == 9;
    ParseIntOfDigits("9");
  }

  /** `trimStart()`: drops the leading white space. */
  function TrimStart(s: string): string
    decreases |s|
  {
    if |s| > 0 && IsSpace(s[0]) then TrimStart(s[1..]) else s
  }

  /** `trimEnd()`: drops the trailing white space. */
  function TrimEnd(s: string): string
    decreases |s|
  {
    if |s| > 0 && IsSpace(s[|s| - 1]) then TrimEnd(s[..|s| - 1]) else s
  }

  /** Length of the longest prefix of `s` made of decimal digits. */
  function DigitPrefixLength(s: string): (k: nat)
    ensures k <= |s| && AllDigits(s[..k])
    ensures k < |s| ==> !IsDigit(s[k])
    decreases |s|
  {
    if |s| > 0 && IsDigit(s[0]) then
      var k := 1 + DigitPrefixLength(s[1..]);
      assert s[..k] == [s[0]] + s[1..][..k - 1];
      k
    else 0
  }

  /**
   * `parseInt(s, 10)`: skip leading white space, take an optional sign, then
   * the longest run of decimal digits; NaN (None) when there is no digit.
   */
  function ParseInt(s: string): (r: Option<int>)
  {
    var t := TrimStart(s);
    var negative := |t| > 0 && t[0] == '-';
    var body := if |t| > 0 && (t[0] == '-' || t[0] == '+') then t[1..] else t;
    var k := DigitPrefixLength(body);
    var magnitude: int := DigitsValue(body[..k]);
    if k == 0 then None
    else if negative then Some(-magnitude)
    else Some(magnitude)
  }

  /**
   * `Number(s)` on a string, for the integer literals the modelled code can
   * meet: white space is trimmed, the empty string is 0, an optional sign and
   * a run of decimal digits is that integer, anything else is NaN (None).
   */
  function NumberOf(s: string): (r: Option<int>)
  {
    var t := TrimEnd(TrimStart(s));
    var negative := |t| > 0 && t[0] == '-';
    var body := if |t| > 0 && (t[0] == '-' || t[0] == '+') then t[1..] else t;
    if |t| == 0 then Some(0)
    else if |body| == 0 || !AllDigits(body) then None
    else
      var magnitude: int := DigitsValue(body);
      if negative then Some(-magnitude) else Some(magnitude)
  }

  /** On a string of digits, parseInt reads the whole string. */
  lemma ParseIntOfDigits(s: string)
    requires 0 < |s| && AllDigits(s)
    ensures ParseInt(s) == Some(DigitsValue(s))
  {
    assert IsDigit(s[0]);
    assert !IsSpace(s[0]) && s[0] != '-' && s[0] != '+';
    assert TrimStart(s) == s;
    DigitPrefixOfDigits(s);
    assert s[..|s|] == s;
  }

  lemma {:induction false} DigitPrefixOfDigits(s: string)
    requires AllDigits(s)
    ensures DigitPrefixLength(s) == |s|
    decreases |s|
  {
    if |s| > 0 {
      assert IsDigit(s[0]);
      DigitPrefixOfDigits(s[1..]);
    }
  }

  /** On a string of digits, Number() reads the whole string. */
  lemma NumberOfDigits(s: string)
    requires 0 < |s| && AllDigits(s)
    ensures NumberOf(s) == Some(DigitsValue(s))
  {
    assert IsDigit(s[0]) && IsDigit(s[|s| - 1]);
    assert !IsSpace(s[0]) && s[0] != '-' && s[0] != '+';
    assert !IsSpace(s[|s| - 1]);
    assert TrimStart(s) == s;
    assert TrimEnd(s) == s;
  }

  /** parseInt reads back every rendered natural number. */
  lemma ParseIntOfNatToString(n: nat)
    ensures ParseInt(NatToString(n)) == Some(n)
  {
    ParseIntOfDigits(NatToString(n));
    DigitsValueOfNatToString(n);
  }

  /** Number() reads back a natural number's text padded to two digits. */
  lemma NumberOfPadded(n: nat)
    ensures NumberOf(PadStart2(NatToString(n))) == Some(n)
  {
    var s := NatToString(n);
    DigitsValueOfNatToString(n);
    if |s| < 2 {
      DigitsValueLeadingZero(s);
      assert PadStart2(s) == "0" + s;
    }
    NumberOfDigits(PadStart2(s));
  }

  /** `s.padStart(2, '0')`. */
  function PadStart2(s: string): string
  {
    if |s| >= 2 then s else seq(2 - |s|, _ => '0') + s
  }

  /** Padding keeps the text at the end and puts only zeros in front of it. */
  lemma PadStart2Shape(s: string)
    ensures |PadStart2(s)| == if |s| >= 2 then |s| else 2
    ensures PadStart2(s)[|PadStart2(s)| - |s|..] == s
    ensures forall i | 0 <= i < |PadStart2(s)| - |s| :: PadStart2(s)[i] == '0'
  {
  }

  /** `s.split(sep)` for a one-character separator. */
  function Split(s: string, sep: char): (parts: seq<string>)
    ensures |parts| >= 1
    decreases |s|
  {
    if |s| == 0 then [""]
    else
      var rest := Split(s[1..], sep);
      if s[0] == sep then [""] + rest else [[s[0]] + rest[0]] + rest[1..]
  }

  /** A string without the separator is one part. */
  lemma {:induction false} SplitWithoutSeparator(s: string, sep: char)
    requires sep !in s
    ensures Split(s, sep) == [s]
    decreases |s|
  {
    if |s| > 0 {
      SplitWithoutSeparator(s[1..], sep);
      assert [s[0]] + s[1..] == s;
    }
  }

  /** Splitting at the first separator: what comes before it is the first part. */
  lemma {:induction false} SplitAtFirst(a: string, sep: char, b: string)
    requires sep !in a
    ensures Split(a + [sep] + b, sep) == [a] + Split(b, sep)
    decreases |a|
  {
    var s := a + [sep] + b;
    if |a| == 0 {
      assert s[1..] == b;
    } else {
      assert s[1..] == a[1..] + [sep] + b;
      SplitAtFirst(a[1..], sep, b);
      assert [a[0]] + a[1..] == a;
    }
  }

  /** `needle` occurs in `hay` at position `i`. */
  predicate OccursAt(hay: string, needle: string, i: int)
  {
    0 <= i && i + |needle| <= |hay| && hay[i..i + |needle|] == needle
  }

  /** `hay.includes(needle)`. */
  function Includes(hay: string, needle: string): (r: bool)
    ensures r <==> exists i :: OccursAt(hay, needle, i)
    decreases |hay|
  {
    if needle <= hay then
      assert OccursAt(hay, needle, 0);
      true
    else if |hay| == 0 then false
    else
      var r := Includes(hay[1..], needle);
      OccurrenceShift(hay, needle);
      r
  }

  /** Past a non-match at position 0, the occurrences of `needle` are those in the tail. */
  lemma OccurrenceShift(hay: string, needle: string)
    requires |hay| > 0 && !(needle <= hay)
    ensures (exists i :: OccursAt(hay, needle, i)) <==> (exists i :: OccursAt(hay[1..], needle, i))
  {
    if i :| OccursAt(hay, needle, i) {
      if i != 0 {
        assert OccursAt(hay[1..], needle, i - 1);
      }
    }
    if i :| OccursAt(hay[1..], needle, i) {
      assert OccursAt(hay, needle, i + 1);
    }
  }

  function LowerChar(c: char): char
  {
    if 'A' <= c <= 'Z' then (c as int + 32) as char else c
  }

  /** `toLowerCase()` restricted to ASCII letters. */
  function ToLower(s: string): (r: string)
    ensures |r| == |s|
    ensures forall i | 0 <= i < |s| :: r[i] == LowerChar(s[i])
  {
    seq(|s|, i requires 0 <= i < |s| => LowerChar(s[i]))
  }

  /** Position of the first `c` in `s`, or -1 (`indexOf`). */
  function IndexOf(s: string, c: char): (k: int)
    ensures -1 <= k < |s|
    ensures k == -1 <==> c !in s
    ensures k >= 0 ==> s[k] == c && c !in s[..k]
    decreases |s|
  {
    if |s| == 0 then -1
    else if s[0] == c then 0
    else
      var k := IndexOf(s[1..], c);
      if k == -1 then -1
      else
        assert s[..k + 1] == [s[0]] + s[1..][..k];
        k + 1
  }

  /** `s.replace(c, d)` with a one-character string pattern: only the first occurrence changes. */
  function ReplaceFirst(s: string, c: char, d: char): (r: string)
    decreases |s|
  {
    if |s| == 0 then s
    else if s[0] == c then [d] + s[1..]
    else [s[0]] + ReplaceFirst(s[1..], c, d)
  }

  /** Only the position of the first `c` changes, and it becomes `d`. */
  lemma {:induction false} ReplaceFirstChanges(s: string, c: char, d: char)
    ensures |ReplaceFirst(s, c, d)| == |s|
    ensures forall i | 0 <= i < |s| :: ReplaceFirst(s, c, d)[i] == (if i == IndexOf(s, c) then d else s[i])
    decreases |s|
  {
    if |s| > 0 && s[0] != c {
      ReplaceFirstChanges(s[1..], c, d);
    }
  }

  /** Replacing the first `c` when it follows a `c`-free prefix. */
  lemma {:induction false} ReplaceFirstAfter(a: string, b: string, c: char, d: char)
    requires c !in a
    ensures ReplaceFirst(a + [c] + b, c, d) == a + [d] + b
    decreases |a|
  {
    var s := a + [c] + b;
    if |a| > 0 {
      assert s[1..] == a[1..] + [c] + b;
      ReplaceFirstAfter(a[1..], b, c, d);
    }
  }

  /** A string without `c` is left alone. */
  lemma {:induction false} ReplaceFirstAbsent(s: string, c: char, d: char)
    requires c !in s
    ensures ReplaceFirst(s, c, d) == s
    decreases |s|
  {
    if |s| > 0 {
      ReplaceFirstAbsent(s[1..], c, d);
    }
  }
}

=== FILE: voice_ai_types.dfy ===
/** The voice-receptionist records: an appointment request and a call session. */
module VoiceAiTypes {
  import opened Options
  import opened Json

  /**
   * What a caller asks for. The treatment type is whatever value the caller
   * sent, since the code copies it without looking at it.
   */
  datatype AppointmentRequest = AppointmentRequest(
    patientName: string,
    contactNumber: string,
    preferredDate: string,
    preferredTime: string,
    treatmentType: Option<Json>,
    isUrgent: Option<bool>)

  datatype CallType = Inquiry | Appointment | Emergency | FollowUp

  datatype CallStatus = Active | Completed | Disconnected

  datatype CallSession = CallSession(
    id: string,
    patientId: Option<string>,
    startTime: string,
    endTime: Option<string>,
    duration: Option<int>,
    callType: CallType,
    status: CallStatus,
    transcript: Option<string>,
    outcome: Option<string>)

  /** The string literal each call type is stored as. */
  function CallTypeName(t: CallType): string
  {
    match t
    case Inquiry => "inquiry"
    case Appointment => "appointment"
    case Emergency => "emergency"
    case FollowUp => "follow-up"
  }

  /** The string literal each call status is stored as. */
  function CallStatusName(s: CallStatus): string
  {
    match s
    case Active => "active"
    case Completed => "completed"
    case Disconnected => "disconnected"
  }
}

=== FILE: webhook_route.dfy ===
/**
 * The webhook the voice platform calls: call start and end notices, and
 * function calls the assistant makes during a call (book an appointment,
 * check availability, ask for clinic information).
 */
module WebhookRoute {
  import opened Options
  import opened Json
  import opened VoiceAiTypes
  import opened CalendarService
  import CalendarFacts

  /** What handling one webhook did besides answering it. */
  datatype Effect =
    | CallStartedLogged(callId: string)
    | CallEndedLogged(callId: string)
      /** An appointment was booked and its confirmation sent. */
    | AppointmentBooked(event: CalendarEvent, confirmed: bool)
    | SlotsCounted(count: nat)
    | ClinicInfoRequested
      /** The function call threw; the error is logged and swallowed. */
    | FunctionFailed
    | UnhandledFunction(name: string)
    | UnhandledType(typeText: string)

  datatype Outcome = Outcome(status: int, body: Object, effect: Option<Effect>)

  const Success: Object := map["success" := JBool(true)]
  const Failure: Object := map["error" := JString("Webhook processing failed")]

  /** A missing property renders as "undefined" inside a template literal. */
  function RenderField(v: Option<Json>): string
  {
    if v.Some? then Render(v.value) else "undefined"
  }

  /** Reading a property of a possibly missing value: None when the read throws. */
  function Property(v: Option<Json>, key: string): Option<Option<Json>>
  {
    if v.None? then None
    else
      match PropertiesOf(v.value)
      case None => None
      case Some(props) => Some(Get(props, key))
  }

  /**
   * The function-call parameters as the request `bookAppointment` reads.
   * Booking throws, giving None, when the parameters are not an object or
   * their `preferredTime` is not a string: the time is split, and only a
   * string can be. Name, contact and date only ever appear inside template
   * literals, so each is kept as its rendered text ("undefined" when absent).
   */
  function RequestOf(parameters: Option<Json>): (r: Option<AppointmentRequest>)
    ensures r.Some? <==>
              && parameters.Some? && parameters.value.JObject?
              && Get(parameters.value.fields, "preferredTime").Some?
              && Get(parameters.value.fields, "preferredTime").value.JString?
    ensures r.Some? ==> Get(parameters.value.fields, "preferredTime") == Some(JString(r.value.preferredTime))
    ensures r.Some? ==>
              && r.value.patientName == RenderField(Get(parameters.value.fields, "patientName"))
              && r.value.contactNumber == RenderField(Get(parameters.value.fields, "contactNumber"))
              && r.value.preferredDate == RenderField(Get(parameters.value.fields, "preferredDate"))
    ensures r.Some? ==> r.value.treatmentType == Get(parameters.value.fields, "treatmentType")
    ensures r.Some? ==> (r.value.isUrgent == Some(true) <==> Truthy(Get(parameters.value.fields, "isUrgent")))
  {
    if parameters.None? || !parameters.value.JObject? then None
    else
      var p := parameters.value.fields;
      match Get(p, "preferredTime")
      case Some(JString(time)) =>
        Some(AppointmentRequest(
          RenderField(Get(p, "patientName")), RenderField(Get(p, "contactNumber")),
          RenderField(Get(p, "preferredDate")), time,
          Get(p, "treatmentType"),
          if Truthy(Get(p, "isUrgent")) then Some(true) else None))
      case _ => None
  }

  /**
   * A booking whose parameters hold nothing but a string time still goes
   * through, for a patient named "undefined".
   */
  lemma BookingWithTimeOnly(time: string, id: string, day: DayOfWeek)
    ensures var parameters := JObject(map["preferredTime" := JString(time)]);
            var e := HandleFunctionCall(Some(JObject(map["name" := JString("bookAppointment"), "parameters" := parameters])), id, day);
            e.AppointmentBooked? && e.event.title == TitlePrefix + "undefined"
  {
    var parameters := JObject(map["preferredTime" := JString(time)]);
    var call := Some(JObject(map["name" := JString("bookAppointment"), "parameters" := parameters]));
    assert Property(call, "name") == Some(Some(JString("bookAppointment")));
    assert Property(call, "parameters") == Some(Some(parameters));
    var p := parameters.fields;
    assert Get(p, "preferredTime") == Some(JString(time));
    assert Get(p, "patientName") == None;
    var r := RequestOf(Some(parameters));
    assert r.Some? && r.value.patientName == "undefined";
  }

  /** The function names the handler knows, as the values `functionCall.name` is compared with. */
  const KnownFunctions: set<Option<Json>> :=
    {Some(JString("bookAppointment")), Some(JString("checkAvailability")), Some(JString("getClinicInfo"))}

  /**
   * `handleFunctionCall`: never fails the webhook. `id` is the identifier the
   * booking would get and `day` the day of the week of the requested date.
   */
  function HandleFunctionCall(functionCall: Option<Json>, id: string, day: DayOfWeek): (e: Effect)
    ensures e.AppointmentBooked? <==>
              && Property(functionCall, "name") == Some(Some(JString("bookAppointment")))
              && RequestOf(Property(functionCall, "parameters").value).Some?
    ensures e.AppointmentBooked? ==>
              e == AppointmentBooked(BookAppointment(RequestOf(Property(functionCall, "parameters").value).value, id), true)
    ensures e.AppointmentBooked? ==>
              (e.event.status == Confirmed <==> Truthy(Get(Property(functionCall, "parameters").value.value.fields, "isUrgent")))
    ensures e.SlotsCounted? <==>
              && Property(functionCall, "name") == Some(Some(JString("checkAvailability")))
              && Property(functionCall, "parameters").value !in {None, Some(JNull)}
    ensures e.SlotsCounted? ==> e.count == |GetAvailableSlots(day)|
    ensures e.ClinicInfoRequested? <==> Property(functionCall, "name") == Some(Some(JString("getClinicInfo")))
    ensures e.UnhandledFunction? <==>
              && Property(functionCall, "name").Some?
              && Property(functionCall, "name").value !in KnownFunctions
    ensures e.UnhandledFunction? ==> e.name == RenderField(Property(functionCall, "name").value)
    ensures e.FunctionFailed? <==>
              || Property(functionCall, "name").None?
              || (&& Property(functionCall, "name") == Some(Some(JString("bookAppointment")))
                  && RequestOf(Property(functionCall, "parameters").value).None?)
              || (&& Property(functionCall, "name") == Some(Some(JString("checkAvailability")))
                  && Property(functionCall, "parameters").value in {None, Some(JNull)})
    ensures e.CallStartedLogged? || e.CallEndedLogged? || e.UnhandledType? ==> false
  {
    match Property(functionCall, "name")
    case None => FunctionFailed
    case Some(name) =>
      if name == Some(JString("bookAppointment")) then
        match RequestOf(Property(functionCall, "parameters").value)
        case None => FunctionFailed
        case Some(request) =>
          var event := BookAppointment(request, id);
          AppointmentBooked(event, SendConfirmation(event))
      else if name == Some(JString("checkAvailability")) then
        // `const { date } = functionCall.parameters` throws on a missing or null value.
        var parameters := Property(functionCall, "parameters").value;
        if parameters.None? || parameters == Some(JNull) then FunctionFailed
        else SlotsCounted(|GetAvailableSlots(day)|)
      else if name == Some(JString("getClinicInfo")) then
        ClinicInfoRequested
      else
        UnhandledFunction(RenderField(name))
  }

  /**
   * POST: `body` is the parsed payload (None when it is not JSON). Only a
   * null payload, or a call notice without a call object, fails the webhook.
   */
  function HandleWebhook(body: Option<Json>, id: string, day: DayOfWeek): (o: Outcome)
    ensures o.status == 200 || o.status == 500
    ensures o.status == 200 ==> o.body == Success
    ensures o.status == 500 ==> o.body == Failure
    ensures o.status == 500 <==> o.effect.None?
    ensures o.status == 500 <==>
              || body.None?
              || body == Some(JNull)
              || (&& body.value.JObject?
                  && Get(body.value.fields, "type") in {Some(JString("call-started")), Some(JString("call-ended"))}
                  && Property(Get(body.value.fields, "call"), "id").None?)
    ensures body.Some? && body.value.JObject? && Get(body.value.fields, "type") == Some(JString("function-call")) ==>
              o.effect == Some(HandleFunctionCall(Get(body.value.fields, "functionCall"), id, day))
  {
    if body.None? then Outcome(500, Failure, None)
    else
      match PropertiesOf(body.value)
      case None => Outcome(500, Failure, None)
      case Some(payload) =>
        var kind := Get(payload, "type");
        var callId := Property(Get(payload, "call"), "id");
        if kind == Some(JString("call-started")) then
          if callId.None? then Outcome(500, Failure, None)
          else Outcome(200, Success, Some(CallStartedLogged(RenderField(callId.value))))
        else if kind == Some(JString("call-ended")) then
          if callId.None? then Outcome(500, Failure, None)
          else Outcome(200, Success, Some(CallEndedLogged(RenderField(callId.value))))
        else if kind == Some(JString("function-call")) then
          Outcome(200, Success, Some(HandleFunctionCall(Get(payload, "functionCall"), id, day)))
        else
          Outcome(200, Success, Some(UnhandledType(RenderField(kind))))
  }

  /** An availability check counts 0 slots on Sunday, 7 on Saturday and 15 on any other day. */
  lemma AvailabilityCount(functionCall: Option<Json>, id: string, day: DayOfWeek)
    requires HandleFunctionCall(functionCall, id, day).SlotsCounted?
    ensures HandleFunctionCall(functionCall, id, day).count
         == if day == Day(0) then 0 else if day == Day(6) then 7 else 15
  {
    CalendarFacts.AvailableSlotsSchedule(day);
  }
}
